=== FILE: README.md ===
# Document analyzer: PDF reconstruction with image captions

A Dafny model of the document-processing core of a Streamlit application built on
MarkItDown. The application turns an uploaded document into text. When captioning
by a language model is on and the upload is a PDF, it rebuilds every page itself:

- the page text is cut into lines, and each line gets an approximate vertical
  position from the words whose text occurs in it;
- every embedded image is captioned by a vision model and becomes
  `Figure N: <caption>`, with one counter that runs over the whole document;
- the figures of a page are stable-sorted by vertical midpoint and merged into
  the lines by a single forward pass;
- each page is rendered under `--- Page N ---`, and the pages are joined by a
  blank line.

Captions come from one of two backends:

- a local OpenAI-compatible HTTP endpoint. Its client has an image size guard,
  a timeout that degrades to a sentinel caption, and re-raises every other failure;
- the remote OpenAI API, reached with an API key.

Every other upload, and a PDF with captioning off, goes to the generic converter.

The modules follow the program's structure:

| module | what it holds |
|---|---|
| `Wrappers` | `Option`, `Result` and `MapAll`, the loop that stops at the first raised error |
| `Text` | `split`, `join`, substring test, `strip`, decimal rendering and ASCII lower-casing |
| `Chat` | messages, the JSON body, the typed response and the error kinds |
| `LocalClient` | the local backend's `create` |
| `Captioner` | the caption request and `describe_image_with_llm` |
| `Extraction` | line positions |
| `Figures` | midpoints, captions, numbering and the stable sort |
| `ReadingOrder` | the merge, as a recursive function, as a placement statement and as the program's loops |
| `Document` | the whole PDF path |
| `Routing` | backend selection and `process_document` |

Everything outside the program is an input:

- a page's extracted text, its words with their `top`, and its image boxes;
- the base64 text of each cropped image;
- what an HTTP POST or the remote library returns;
- the converter's outcome.

A Python exception that unwinds to the top is a `Failure` carrying a `Fault`.
The PDF path is stated for any captioning function (`Document.CaptionFn`). `Document.ProcessPdf`
instantiates it with the selected backend through `describe_image_with_llm`.

A figure that lies below every positioned line does not go last. The loop emits a
pending figure as soon as a line's position is at or above the figure's midpoint,
so it follows the first such line. Lines at 10 and 50 with a figure at 60 give
`Title, Figure 1, Body text` (`Document.FigureBelowLines`).

## Model

| member | source | states |
|---|---|---|
| `Wrappers.MapAll` | main.py:191-197 | Calling a raising function on each element in order succeeds iff every call does. The results are those calls' values, in order. A failure is the error of the first failing call, and every earlier call succeeded. |
| `Text.Split` | main.py:172 | `split` yields at least one piece, and no piece contains the separator. |
| `Text.SplitThenJoin` | main.py:172 | Joining the pieces of a split with the separator gives back the original text. |
| `Text.JoinThenSplit` | main.py:222 | Splitting a join of separator-free pieces gives back exactly those pieces. |
| `Text.JoinSnoc` | main.py:225 | Joining one more piece appends the separator and that piece. |
| `Text.SplitHasSecond` | main.py:71 | A split has a second piece iff the text contains the separator. |
| `Text.ContainsIff` | main.py:178 | The substring test `w in ln` holds iff the word occurs in the line at some index. |
| `Text.Strip` | main.py:161 | `strip()` removes a whitespace-only prefix and suffix, nothing else, and leaves no whitespace at either end. |
| `Text.StripIdempotent` | main.py:161 | Stripping twice is stripping once. |
| `Text.ParseNatToString` | main.py:199 | The decimal text of a figure or page number reads back as that number. |
| `Text.NatToStringInjective` | main.py:199 | Distinct numbers have distinct decimal texts. |
| `Chat.Decode` | main.py:114-124 | Reading `choices[0].message` succeeds iff the body has a first choice with a string `content`. The content is that string. The role is present iff the message has a string `role`. Otherwise the error is a missing content. |
| `Chat.DecodeResponseJson` | main.py:75-82 | The `{"choices": [{"message": {...}}]}` body built from a role and content decodes to exactly that role and content. |
| `Chat.Sentinel` | main.py:102-109 | A substituted response has role `assistant` and the given content. |
| `LocalClient.PartGuard` | main.py:68-73 | Only `image_url` parts whose URL mentions `data:image` are inspected. Such a part is an error iff its URL has no comma. Otherwise it is too large iff the text after the first comma, up to the second, is longer than 3,000,000 characters; exactly 3,000,000 passes. |
| `LocalClient.ScanPartsFirst` | main.py:67-82 | The guard passes iff every part passes. Otherwise its verdict is that of the first part that does not pass. |
| `LocalClient.ScanMessages` | main.py:67-82 | The guard over all messages passes iff the part scan of every multi-part message passes. Plain-string contents are never inspected. |
| `LocalClient.ScanMessagesIsScanOfParts` | main.py:67-70 | Scanning message by message equals scanning all parts of all multi-part messages as one sequence. Plain-string contents are skipped. |
| `LocalClient.Create` | main.py:64-112 | A too-large image gives the one-choice `assistant` response "Image too large to process." and posts nothing. A URL without a comma raises and posts nothing. Otherwise exactly `{model, messages, temperature, max_tokens, stream}` is posted. A timeout gives "The LLM request timed out.". Any other transport failure is raised. An unparsable body is raised. A parsed body is decoded whatever the status. |
| `LocalClient.StatusIgnored` | main.py:93-99 | Two transports that differ only in the HTTP status of their replies give the same outcome. |
| `Captioner.Describe` | main.py:160-161 | A caption succeeds iff the backend call does. An error passes through unchanged. The caption is the response content stripped, with no whitespace at either end. |
| `Captioner.CaptionText` | main.py:161 | A backend outcome yields a caption iff it is a response, and an error passes through. The caption is the content with leading and trailing whitespace removed, so neither end is whitespace. |
| `Captioner.CaptionPayload` | main.py:146-159 | The caption request's URL is `data:image/png;base64,` followed by the payload. The guard inspects it and reads exactly the base64 text. It passes iff that text has at most 3,000,000 characters. |
| `Captioner.LocalCaption` | main.py:64-109 | On the local backend, base64 text over 3,000,000 characters posts nothing and gives the too-large sentinel as the caption. Otherwise the request is posted with temperature 0.7, `max_tokens` -1 and `stream` false, and a timeout gives the timeout sentinel as the caption. |
| `Extraction.PageText` | main.py:171 | A page without extracted text reads as the empty string. |
| `Extraction.MatchedTops` | main.py:178 | The associated tops are empty iff no word occurs in the line. Each one is the `top` of a word that does. |
| `Extraction.MatchedTopsAppend` | main.py:178 | The tops of a concatenated word list are the tops of its first part followed by those of its second, so the tops keep word order. |
| `Extraction.MatchedTopsSingle` | main.py:178 | One word contributes its `top` exactly once if its text occurs in the line, and nothing otherwise. With `MatchedTopsAppend` this makes the tops the order-preserving filter of the words. |
| `Extraction.Position` | main.py:177-182 | A line has no position iff no word's text occurs in it. A defined position is the sum of all associated tops divided by their number. |
| `Extraction.TwoWordLine` | main.py:177-182 | The line `"ab"` with words `a` at 10 and `b` at 20 is at 15, the mean of both tops. |
| `Extraction.PositionWithinMatches` | main.py:179-180 | A defined position, the mean of the associated tops, lies within any bounds on those tops. |
| `Extraction.LinePositions` | main.py:172-183 | There is one entry per piece of `text.split('\n')`, in order. Each entry holds the piece, which has no newline, and its position. The position is absent iff no word matches. |
| `Extraction.LinesRejoin` | main.py:172-183 | Joining the line texts with newlines gives back the page text. |
| `Extraction.EmptyPageOneLine` | main.py:171-172 | A page with missing or empty text has the single line `""`. |
| `Figures.Midpoint` | main.py:198 | The midpoint is equidistant from the box's two vertical edges. |
| `Figures.Caption` | main.py:199 | A caption line starts with `Figure ` and ends with the description. `CaptionReadsBack` shows the digits between are the figure's number, and `CaptionInjective` that the line determines number and description. |
| `Figures.CaptionReadsBack` | main.py:199 | A caption line is `Figure `, then decimal digits that parse back to the figure's number, then `: `, then the description. |
| `Figures.CaptionInjective` | main.py:199 | A caption line `Figure N: desc` determines both N and the description. |
| `Figures.NumberPage` | main.py:191-200 | The i-th image of a page becomes figure `start + i`, with its box's midpoint and its caption. |
| `Figures.SortByMid` | main.py:202 | The sort is ascending by midpoint. It is a permutation of its input. Figures with equal midpoints keep their input order. |
| `Figures.StableSortUnique` | main.py:202 | Two ascending sequences with the same per-midpoint subsequences are equal: any stable sort gives `SortByMid`'s result. |
| `Figures.SortKeepsDiscoveryOrder` | main.py:191-202 | If figures arrive in increasing number order, figures that share a midpoint stay in number order after the sort. |
| `ReadingOrder.Lead` | main.py:209-215 | The inner loop emits the longest prefix of the pending figures that passes `avg_y is not None and fig_y >= avg_y`. |
| `ReadingOrder.FirstAnchor` | main.py:207-213 | Finds the first line with a defined position at most the given midpoint, or reports that none exists. |
| `ReadingOrder.Merge` | main.py:205-220 | The merge is defined one line at a time: the line, then the figures its inner loop emits, then the merge of the rest. Its meaning is stated by `MergePreservesBoth`, `MergeIsPlaced` and `MergeLoop`. |
| `ReadingOrder.MergePreservesBoth` | main.py:205-220 | Deleting the figure lines from the merged page gives back its lines exactly. Keeping only the figure lines gives back its figures, each exactly once, in the order given. |
| `ReadingOrder.MergeNoFigures` | main.py:205-220 | Without figures the merged page is its lines. |
| `ReadingOrder.MergeIsPlaced` | main.py:205-220 | For ascending figures, the merge places them as one contiguous block right after the first line whose position is defined and at most the smallest midpoint. With no such line, including when no line has a position, the block is at the end. |
| `ReadingOrder.EmitPending` | main.py:209-215 | The inner loop stops at the first pending figure that fails the test. It emits exactly the figures before it. |
| `ReadingOrder.MergeLoop` | main.py:205-220 | The program's loops compute the recursive merge. |
| `Document.DescribePagesSuccess` | main.py:169-197 | Captioning a document succeeds iff every image's call does. Captions are those calls' results, page by page, in discovery order. |
| `Document.DescribePagesFailure` | main.py:169-197 | A failed document carries the error of the first failing image, in page and then discovery order. |
| `Document.NumberPages` | main.py:166-200 | Read page by page and then in discovery order, the figure numbers are exactly `start, start+1, …`, with no gap and no reset at a new page. Each figure keeps its image's midpoint and caption. |
| `Document.PageNumbersIncrease` | main.py:191-200 | Within a page, figure numbers increase in discovery order. |
| `Document.TwoPageNumbering` | main.py:166-200 | A page with two images followed by a page with one gives figures 1 and 2, then 3. |
| `Document.DocumentFigures` | main.py:166-200 | A document's figures, read in order, are numbered `1 … total` whenever captioning succeeds. Otherwise the result is the captioning error. `DocumentFiguresMatchImages` ties each figure to its image's midpoint and caption. |
| `Document.DocumentFiguresMatchImages` | main.py:191-200 | In a captioned document, page p has one figure per image. Figure i has image i's midpoint, and its description is what the caption call returned for image i. |
| `Document.PdfPages` | main.py:169-220 | There is one merged output per page. Each is the merge of that page's lines with its sorted figures. |
| `Document.PdfPageContents` | main.py:202-220 | On each page, deleting the figures gives back the lines. The figures are the page's own, each once, ascending and stable-sorted, with ties in discovery order. They are placed as one block after the first anchoring line. |
| `Document.PageHeaderInjective` | main.py:223 | Distinct page numbers give distinct page headers. |
| `Document.RenderPageSplits` | main.py:222-223 | If no rendered line holds a newline, a rendered page read line by line is its `--- Page N ---` header followed by its rendered lines. |
| `Document.RenderPage` | main.py:222-223 | A rendered page starts with its `--- Page N ---` header and a newline. A page with no output lines is exactly that. `RenderPageOne` and `RenderPageSnoc` give the body, `PageHeaderReadsBack` the header's number, and `RenderedPlaced` the text of every line. |
| `Document.PageHeaderReadsBack` | main.py:223 | A page header is `--- Page `, then decimal digits that parse back to the page number, then ` ---`. |
| `Document.RenderPageOne` | main.py:222-223 | A page with one merged line is its header, a newline and that line's text. |
| `Document.RenderPageSnoc` | main.py:222-223 | Each further merged line adds a newline and that line's text, whatever the text holds. So the body is the rendered lines joined by newlines, multi-line captions included. |
| `Document.RenderedPlaced` | main.py:199-222 | For ascending figures, a page's rendered lines are the line texts up to the first anchoring line, then every figure's `Figure N: desc` caption in sorted order, then the remaining line texts. With no anchoring line, all line texts come first and then the captions. |
| `Document.RenderDocument` | main.py:225 | No pages give the empty text, and one page is that page rendered as page 1. With more pages the text starts with page 1 followed by a blank line. `RenderDocumentSnoc` gives every later page. |
| `Document.RenderDocumentSnoc` | main.py:169-225 | Adding a page to a non-empty document appends a blank line and that page under the next page number. With the one-page case, every page is rendered in order, numbered from 1 and separated by `"\n\n"`. |
| `Document.ProcessPdf` | main.py:163-225 | The PDF path fails iff captioning fails, with the same error. Otherwise it is the pages rendered from 1 and joined by a blank line. A document without pages is the empty text. |
| `Document.FigureBetweenLines` | main.py:205-220 | Lines at 10 and 50 with a figure at midpoint 30 give `Title, Figure, Body text`. |
| `Document.FigureBelowLines` | main.py:205-220 | Lines at 10 and 50 with a figure at midpoint 60 also give `Title, Figure, Body text`. |
| `Routing.LastIndex` | main.py:258 | Finds the last occurrence of a character, with no later one, or reports that there is none. |
| `Routing.BaseName` | main.py:258 | An upload's final component holds no `/`. A name without `/` is its own final component. Otherwise it is the text after the last `/`. |
| `Routing.Suffix` | main.py:258 | A non-empty suffix ends the name, starts with its one `.`, has at least one character after it, and has at least one character before it. A name without `.` has no suffix. When the last `.` is neither the first nor the last character, the suffix is the text from that `.` on. |
| `Routing.IsPdf` | main.py:258-260 | A name that takes the PDF route has more than four characters. `IsPdfIff` gives the exact condition. |
| `Routing.IsPdfIff` | main.py:258-260 | An upload takes the PDF route iff its final component is longer than four characters and ends in `.pdf` in any ASCII letter case. |
| `Routing.ApiKey` | main.py:239-241 | A key is available iff the custom key or the environment key is non-empty. A non-empty custom key wins. |
| `Routing.SelectBackend` | main.py:235-256 | Captioning off selects no backend. Any provider but `"OpenAI"` selects the local endpoint at its default address with the local vision model. `"OpenAI"` fails if its library is missing, then fails if no key is available, and otherwise selects the remote API with that key and `gpt-4o`. |
| `Routing.ConvertedText` | main.py:265-266 | The converter's error passes through. A missing text content is the empty text. A present one is stripped. |
| `Routing.ProcessDocument` | main.py:234-268 | A failing backend selection fails the document with that error, before any routing. |
| `Routing.Routes` | main.py:258-266 | A PDF with captioning on is the PDF path with the selected backend and model. Anything else is the converter's stripped text. |
| `Routing.NoLlmNoBackend` | main.py:252-266 | With captioning off the outcome depends on neither the backend world, nor the pages, nor the provider or key settings. |
| `Routing.LocalRoute` | main.py:247-261 | A PDF with captioning on and any provider but `"OpenAI"` is captioned by the local endpoint with `llama-3.1-unhinged-vision-8b`. |

## Left out

- The Streamlit user interface, `main()` and the debug-log display are interface only.
- The debug-log list has no effect on any result.
- `clear_cache` is filesystem and cache plumbing.
- The PDF library's calls are inputs (`PageSource`), and so are the base64 text of each crop and the image boxes. These calls open the file, extract text and words, rasterise at 150 DPI and crop. Their failures are not modelled.
- PNG and base64 encoding are not modelled; the encoded text is an opaque string. `image_to_data_uri` is never called.
- The HTTP POST, the remote client library and the generic converter are functions or outcomes given as inputs. So are the `MarkItDown` and `OpenAI` constructors, which are not modelled as failing.
- Temporary files are I/O and are left out: their creation, the suffix chosen for them, and their deletion.
- Floating-point rounding: positions, means and midpoints are exact reals.
- Text.LowerAscii: lower-cases ASCII letters only, because Unicode case mapping of a file suffix has no bearing on whether it equals `.pdf` for ASCII text.
- Routing.BaseName: takes the text after the last `/`. It does not model how the path library treats trailing slashes, Windows separators or `.` components.
- Routing.Suffix: follows the path library rule of Python before 3.14, where a final component ending in a dot has no suffix.
- Chat.Decode: stands for the attribute access and `.strip()` that the caption code performs on a response. It fails as soon as the local client decodes a body without a string content. In the program the same exception is raised one call later, in the caption function. Either way it unwinds to the top.
- Message parts are typed (`TextPart`, `ImageUrlPart`). Malformed dictionaries, on which the size guard's own `c["image_url"]["url"]` lookup would raise, cannot be expressed.
- `Document.ProcessPdf` first captions every image, in the program's call order, and then numbers, sorts, merges and renders. The program interleaves these steps page by page. The two agree because only captioning can fail and nothing else has effects.
- `Captioner.World` is a pure function of the request, so two identical requests, such as the same logo cropped on every page, always get the same caption or the same failure. The real local backend samples at temperature 0.7, and a timeout or transport failure on one call implies nothing about the next identical call. The model does not index the backend by call number.
- The remote backend's behaviour (its status handling, retries and timeouts) belongs to its library, so it is the opaque `World.api`.

=== FILE: captioner.dfy ===
/** `describe_image_with_llm`: one user message holding a fixed instruction and
    the image as a PNG data URI, sent through whichever backend the document
    uses; the caption is the first choice's content, stripped. The PNG and
    base64 encoding of the pixels happen outside the model: the base64 text
    arrives as an opaque string. */
module Captioner {
  import opened Wrappers
  import opened Text
  import opened Chat
  import LocalClient

  /** The two interchangeable backends: the local HTTP endpoint, or the remote
      chat-completions API reached through its client library with a key. */
  datatype Client = LocalLlm(baseUrl: string) | OpenAiLlm(apiKey: string)

  /** Everything outside the program a call can reach: `post(url, body)` is
      what an HTTP POST of `body` to `url` comes back with, and
      `api(key, model, messages)` is what the remote library's `create`
      returns or raises. */
  datatype World = World(
    post: (string, LocalClient.Request) -> LocalClient.Transport,
    api: (string, string, seq<ChatMessage>) -> Result<ChatResponse, Fault>)

  const Prompt: string := "Describe this image in detail:"
  const DataUriPrefix: string := "data:image/png;base64,"

  /** The characters of standard base64 text. */
  predicate IsBase64(s: string) {
    forall k :: 0 <= k < |s| ==>
      ('A' <= s[k] <= 'Z') || ('a' <= s[k] <= 'z') || ('0' <= s[k] <= '9')
      || s[k] == '+' || s[k] == '/' || s[k] == '='
  }

  /** The single message of a captioning request. */
  function CaptionMessages(b64: string): seq<ChatMessage> {
    [ChatMessage("user", Parts([TextPart(Prompt), ImageUrlPart(DataUriPrefix + b64)]))]
  }

  /** `client.chat.completions.create(model=model, messages=messages)`, with the
      defaults of the local backend's signature. */
  function CreateVia(client: Client, world: World, model: string, messages: seq<ChatMessage>)
    : Result<ChatResponse, Fault>
  {
    match client
    case LocalLlm(url) =>
      LocalClient.Create((body: LocalClient.Request) => world.post(url, body), model, messages).result
    case OpenAiLlm(key) => world.api(key, model, messages)
  }

  /** The caption of one image: errors from the backend pass through unchanged,
      a returned content comes back without surrounding whitespace. */
  function Describe(client: Client, world: World, model: string, b64: string): (r: Result<string, Fault>)
    ensures r.Success? <==> CreateVia(client, world, model, CaptionMessages(b64)).Success?
    ensures r.Failure? ==> r.error == CreateVia(client, world, model, CaptionMessages(b64)).error
    ensures r.Success? ==>
      r.value == Strip(CreateVia(client, world, model, CaptionMessages(b64)).value.content)
    ensures r.Success? ==> r.value == [] || (!IsSpace(r.value[0]) && !IsSpace(r.value[|r.value| - 1]))
  {
    CaptionText(CreateVia(client, world, model, CaptionMessages(b64)))
  }

  /** `response.choices[0].message.content.strip()`: the caption a backend
      outcome yields, or the error it raised. */
  function CaptionText(outcome: Result<ChatResponse, Fault>): (r: Result<string, Fault>)
    ensures r.Success? <==> outcome.Success?
    ensures r.Failure? ==> r.error == outcome.error
    ensures r.Success? ==> r.value == Strip(outcome.value.content)
    ensures r.Success? ==> r.value == [] || (!IsSpace(r.value[0]) && !IsSpace(r.value[|r.value| - 1]))
  {
    var response :- outcome;
    Success(Strip(response.content))
  }

  /** The local guard reads exactly the base64 text of a caption request. */
  lemma {:induction false} CaptionPayload(b64: string)
    requires ',' !in b64
    ensures LocalClient.Inspected(ImageUrlPart(DataUriPrefix + b64))
    ensures Split(DataUriPrefix + b64, ',') == ["data:image/png;base64", b64]
    ensures LocalClient.ScanMessages(CaptionMessages(b64))
         == if |b64| > LocalClient.MaxImagePayload then LocalClient.TooLarge else LocalClient.Clear
  {
    var head := "data:image/png;base64";
    assert DataUriPrefix + b64 == head + [','] + b64;
    SplitAtFirst(head, ',', b64);
    SplitWithoutSeparator(b64, ',');
    assert IsPrefix("data:image", DataUriPrefix + b64) by {
      assert (DataUriPrefix + b64)[..10] == DataUriPrefix[..10];
    }
    var ps := [TextPart(Prompt), ImageUrlPart(DataUriPrefix + b64)];
    var g := if |b64| > LocalClient.MaxImagePayload then LocalClient.TooLarge else LocalClient.Clear;
    assert LocalClient.PartGuard(ps[1]) == g;
    assert LocalClient.ScanParts(ps[1..][1..]) == LocalClient.Clear;
    assert LocalClient.ScanParts(ps[1..]) == g;
    assert LocalClient.ScanParts(ps) == g;
    var ms := CaptionMessages(b64);
    assert LocalClient.ScanMessages(ms[1..]) == LocalClient.Clear;
  }

  /** On the local backend a base64 payload over 3,000,000 characters is
      answered with the sentinel caption and nothing is posted; one of at most
      3,000,000 characters is posted as the exact request body with the
      default temperature 0.7, max_tokens -1 and stream false, and a timeout
      then yields the timeout sentinel. */
  lemma LocalCaption(url: string, world: World, model: string, b64: string)
    requires IsBase64(b64)
    ensures var x := LocalClient.Create((body: LocalClient.Request) => world.post(url, body), model, CaptionMessages(b64));
      if |b64| > LocalClient.MaxImagePayload then
        x.posted == None && Describe(LocalLlm(url), world, model, b64) == Success(LocalClient.TooLargeText)
      else
        && x.posted == Some(LocalClient.Request(model, CaptionMessages(b64), 0.7, -1, false))
        && (world.post(url, x.posted.value).Timeout? ==>
              Describe(LocalLlm(url), world, model, b64) == Success(LocalClient.TimedOutText))
  {
    assert forall k :: 0 <= k < |b64| ==> b64[k] != ',';
    CaptionPayload(b64);
    StripClean(LocalClient.TooLargeText);
    StripClean(LocalClient.TimedOutText);
  }
}

=== FILE: chat.dfy ===
/** The chat-completions wire shapes shared by both captioning backends:
    the messages sent, the JSON body a backend answers with, and the typed
    response the rest of the pipeline reads `choices[0].message.content` from. */
module Chat {
  import opened Wrappers

  /** One part of a multi-part message: `{"type": "text", "text": …}` or
      `{"type": "image_url", "image_url": {"url": …}}`. */
  datatype Part = TextPart(text: string) | ImageUrlPart(url: string)

  /** A message's `content`: a plain string or a list of typed parts. */
  datatype Content = Plain(text: string) | Parts(parts: seq<Part>)

  datatype ChatMessage = ChatMessage(role: string, content: Content)

  /** A decoded JSON value. */
  datatype Json =
    | JNull
    | JBool(b: bool)
    | JNum(n: real)
    | JStr(s: string)
    | JArr(items: seq<Json>)
    | JObj(fields: map<string, Json>)

  /** The fatal errors of the pipeline, one per exception the program lets
      unwind to the top-level document call. */
  datatype Fault =
    | ImageUrlWithoutComma          // `url.split(",")[1]` raised IndexError
    | TransportFailure(detail: string) // a request failure other than a timeout
    | BodyNotJson                   // `response.json()` raised
    | MissingContent                // `choices[0].message.content` is absent or not a string
    | RemoteFailure(detail: string) // the remote backend's library raised
    | OpenAiNotInstalled            // RuntimeError("OpenAI library not installed.")
    | ApiKeyRequired                // ValueError("OpenAI API key is required.")
    | ConversionFailure(detail: string) // the generic converter raised

  /** The typed response: the role and content of the first choice, the only
      fields any caller reads. */
  datatype ChatResponse = ChatResponse(role: Option<string>, content: string)

  /** The JSON body `{"choices": [{"message": {"role": role, "content": content}}]}`. */
  function ResponseJson(role: string, content: string): Json {
    JObj(map["choices" := JArr([JObj(map["message" :=
      JObj(map["role" := JStr(role), "content" := JStr(content)])])])])
  }

  /** The first choice's message object, if the body has one. */
  function FirstMessage(body: Json): Option<map<string, Json>> {
    if body.JObj? && "choices" in body.fields
       && body.fields["choices"].JArr? && |body.fields["choices"].items| > 0
       && body.fields["choices"].items[0].JObj?
       && "message" in body.fields["choices"].items[0].fields
       && body.fields["choices"].items[0].fields["message"].JObj?
    then Some(body.fields["choices"].items[0].fields["message"].fields)
    else None
  }

  /** Reads `choices[0].message` out of a response body, failing with
      `MissingContent` where the program's attribute access or `.strip()`
      on the content would raise. */
  function Decode(body: Json): (r: Result<ChatResponse, Fault>)
    ensures r.Success? <==>
      FirstMessage(body).Some? && "content" in FirstMessage(body).value
      && FirstMessage(body).value["content"].JStr?
    ensures r.Failure? ==> r.error == MissingContent
    ensures r.Success? ==> JStr(r.value.content) == FirstMessage(body).value["content"]
    ensures r.Success? ==> (r.value.role.Some? <==>
      "role" in FirstMessage(body).value && FirstMessage(body).value["role"].JStr?)
  {
    match FirstMessage(body)
    case None => Failure(MissingContent)
    case Some(m) =>
      if "content" in m && m["content"].JStr? then
        var role := if "role" in m && m["role"].JStr? then Some(m["role"].s) else None;
        Success(ChatResponse(role, m["content"].s))
      else Failure(MissingContent)
  }

  /** Decoding the body built from a role and content gives them back. */
  lemma DecodeResponseJson(role: string, content: string)
    ensures Decode(ResponseJson(role, content)) == Success(ChatResponse(Some(role), content))
  {
  }

  /** The response a backend substitutes for a degraded call: the JSON body
      with role `assistant`, put through the same decoding as a real body. */
  function Sentinel(content: string): (r: ChatResponse)
    ensures r == ChatResponse(Some("assistant"), content)
  {
    DecodeResponseJson("assistant", content);
    Decode(ResponseJson("assistant", content)).value
  }
}

=== FILE: document.dfy ===
/** `process_pdf_with_images_and_text`: for every page in order, the lines and
    their positions, one caption per image in discovery order numbered by a
    document-wide counter that starts at 1, the stable sort of the page's
    figures by midpoint, the reading-order merge, and the page rendered under
    a `--- Page N ---` header; pages are joined by a blank line. What the PDF
    library extracts from a page (text, words, image boxes, and the base64
    text of each cropped image) arrives as a `PageSource`. */
module Document {
  import opened Wrappers
  import opened Text
  import opened Chat
  import opened Captioner
  import opened Extraction
  import opened Figures
  import opened ReadingOrder

  /** One image of a page: its bounding box and the base64 text of its PNG crop. */
  datatype Image = Image(box: ImageBox, pngBase64: string)

  /** What the PDF library yields for one page. */
  datatype PageSource = PageSource(text: Option<string>, words: seq<Word>, images: seq<Image>)

  /** How the pipeline captions one image: the caption, or the error raised. */
  type CaptionFn = Image -> Result<string, Fault>

  /** The caption call for one image through a backend. */
  function CaptionWith(client: Client, world: World, model: string): CaptionFn {
    (img: Image) => Describe(client, world, model, img.pngBase64)
  }

  /** The captions of a page's images, one backend call per image in
      discovery order; the first failing call aborts with its error. */
  function DescribeAll(caption: CaptionFn, images: seq<Image>)
    : Result<seq<string>, Fault>
  {
    MapAll(caption, images)
  }

  /** The captions of every page, pages in order; the first failing call aborts. */
  function DescribePages(caption: CaptionFn, pages: seq<PageSource>)
    : Result<seq<seq<string>>, Fault>
  {
    MapAll((page: PageSource) => DescribeAll(caption, page.images), pages)
  }

  /** Captioning succeeds exactly when every image's call does, and the
      captions are those calls' results, page by page. */
  lemma {:induction false} DescribePagesSuccess(caption: CaptionFn, pages: seq<PageSource>)
    ensures var r := DescribePages(caption, pages);
      && (r.Success? <==> forall p, i :: 0 <= p < |pages| && 0 <= i < |pages[p].images| ==>
            caption(pages[p].images[i]).Success?)
      && (r.Success? ==> Fits(pages, r.value) && forall p, i :: 0 <= p < |pages| && 0 <= i < |pages[p].images| ==>
            caption(pages[p].images[i]) == Success(r.value[p][i]))
  {
    var r := DescribePages(caption, pages);
    forall p | 0 <= p < |pages|
      ensures DescribeAll(caption, pages[p].images).Success? <==>
        forall i :: 0 <= i < |pages[p].images| ==> caption(pages[p].images[i]).Success?
    {
    }
  }

  /** The first failing image of a page whose captioning failed. */
  lemma PageFailure(caption: CaptionFn, images: seq<Image>)
    requires DescribeAll(caption, images).Failure?
    ensures exists i :: (0 <= i < |images|
      && caption(images[i]) == Failure(DescribeAll(caption, images).error)
      && forall j :: 0 <= j < i ==> caption(images[j]).Success?)
  {
  }

  lemma PageSuccess(caption: CaptionFn, images: seq<Image>, j: nat)
    requires DescribeAll(caption, images).Success? && j < |images|
    ensures caption(images[j]).Success?
  {
  }

  /** Image `i` of page `p` is the first, in page and then discovery order,
      whose caption call fails, and it fails with `e`. */
  predicate FirstFailureAt(caption: CaptionFn, pages: seq<PageSource>, p: int, i: int, e: Fault) {
    && 0 <= p < |pages| && 0 <= i < |pages[p].images|
    && caption(pages[p].images[i]) == Failure(e)
    && (forall q, j :: 0 <= q < p && 0 <= j < |pages[q].images| ==> caption(pages[q].images[j]).Success?)
    && (forall j :: 0 <= j < i ==> caption(pages[p].images[j]).Success?)
  }

  /** A failure is the error of the first call, in page and then discovery
      order, that failed. */
  lemma {:induction false} DescribePagesFailure(caption: CaptionFn, pages: seq<PageSource>)
    ensures DescribePages(caption, pages).Failure? ==>
      exists p, i :: FirstFailureAt(caption, pages, p, i, DescribePages(caption, pages).error)
  {
    if DescribePages(caption, pages).Success? {
      return;
    }
    var e := DescribePages(caption, pages).error;
    var p :| 0 <= p < |pages| && DescribeAll(caption, pages[p].images) == Failure(e)
      && forall q :: 0 <= q < p ==> DescribeAll(caption, pages[q].images).Success?;
    PageFailure(caption, pages[p].images);
    var i :| 0 <= i < |pages[p].images| && caption(pages[p].images[i]) == Failure(e)
      && forall j :: 0 <= j < i ==> caption(pages[p].images[j]).Success?;
    EarlierPagesSucceed(caption, pages, p);
    assert FirstFailureAt(caption, pages, p, i, e);
  }

  lemma EarlierPagesSucceed(caption: CaptionFn, pages: seq<PageSource>, p: nat)
    requires p <= |pages|
    requires forall q :: 0 <= q < p ==> DescribeAll(caption, pages[q].images).Success?
    ensures forall q, j :: 0 <= q < p && 0 <= j < |pages[q].images| ==>
      caption(pages[q].images[j]).Success?
  {
    forall q, j | 0 <= q < p && 0 <= j < |pages[q].images|
      ensures caption(pages[q].images[j]).Success?
    {
      PageSuccess(caption, pages[q].images, j);
    }
  }

  function Boxes(images: seq<Image>): (bs: seq<ImageBox>)
    ensures |bs| == |images| && forall i :: 0 <= i < |images| ==> bs[i] == images[i].box
  {
    seq(|images|, i requires 0 <= i < |images| => images[i].box)
  }

  /** Every page has one caption per image. */
  predicate Fits(pages: seq<PageSource>, descs: seq<seq<string>>) {
    |descs| == |pages| && forall p :: 0 <= p < |pages| ==> |descs[p]| == |pages[p].images|
  }

  function TotalImages(pages: seq<PageSource>): nat
    decreases |pages|
  {
    if |pages| == 0 then 0 else |pages[0].images| + TotalImages(pages[1..])
  }

  function Numbers(figs: seq<Figure>): (ns: seq<nat>)
    ensures |ns| == |figs| && forall i :: 0 <= i < |figs| ==> ns[i] == figs[i].number
  {
    seq(|figs|, i requires 0 <= i < |figs| => figs[i].number)
  }

  /** The figure numbers of a document, pages in order and, within a page,
      in discovery order. */
  function AllNumbers(figss: seq<seq<Figure>>): seq<nat>
    decreases |figss|
  {
    if |figss| == 0 then [] else Numbers(figss[0]) + AllNumbers(figss[1..])
  }

  /** `start, start + 1, …, start + n - 1`. */
  function Range(start: nat, n: nat): (r: seq<nat>)
    ensures |r| == n && forall i :: 0 <= i < n ==> r[i] == start + i
  {
    seq(n, i requires 0 <= i < n => start + i)
  }

  /** The figures of every page, numbered by one counter that starts at
      `start` and runs on from page to page: the numbers, read in page order
      and then discovery order, are exactly `start, start + 1, …` with no gap
      and no reset. */
  function NumberPages(pages: seq<PageSource>, descs: seq<seq<string>>, start: nat)
    : (figss: seq<seq<Figure>>)
    requires Fits(pages, descs)
    ensures |figss| == |pages|
    ensures forall p :: 0 <= p < |pages| ==> (|figss[p]| == |pages[p].images|
      && forall i :: 0 <= i < |pages[p].images| ==>
           figss[p][i].mid == Midpoint(pages[p].images[i].box) && figss[p][i].desc == descs[p][i])
    ensures AllNumbers(figss) == Range(start, TotalImages(pages))
    decreases |pages|
  {
    if |pages| == 0 then []
    else
      var here := NumberPage(Boxes(pages[0].images), descs[0], start);
      var n := |pages[0].images|;
      assert Fits(pages[1..], descs[1..]) by {
        forall p | 0 <= p < |pages[1..]| ensures |descs[1..][p]| == |pages[1..][p].images| {
          assert pages[1..][p] == pages[p + 1];
        }
      }
      var later := NumberPages(pages[1..], descs[1..], start + n);
      var figss := [here] + later;
      assert figss[1..] == later;
      assert Numbers(here) == Range(start, n);
      assert Range(start, n) + Range(start + n, TotalImages(pages[1..])) == Range(start, TotalImages(pages));
      assert forall p :: 1 <= p < |pages| ==> pages[p] == pages[1..][p - 1] && descs[p] == descs[1..][p - 1];
      figss
  }

  /** The lines of a page with their positions. */
  function PageLines(page: PageSource): seq<Line> {
    LinePositions(PageText(page.text), page.words)
  }

  /** The merged output of one page: its lines with its figures sorted by
      midpoint and merged in. */
  function MergePage(page: PageSource, figs: seq<Figure>): seq<MergedLine> {
    Merge(PageLines(page), SortByMid(figs))
  }

  function RenderLine(m: MergedLine): string {
    match m
    case TextLine(t) => t
    case FigureLine(f) => Caption(f)
  }

  function RenderLines(out: seq<MergedLine>): (ss: seq<string>)
    ensures |ss| == |out| && forall i :: 0 <= i < |out| ==> ss[i] == RenderLine(out[i])
  {
    seq(|out|, i requires 0 <= i < |out| => RenderLine(out[i]))
  }

  function PageHeader(n: nat): string {
    "--- Page " + NatToString(n) + " ---"
  }

  /** `f"--- Page {n} ---\n" + "\n".join(lines)`. */
  function RenderPage(n: nat, out: seq<MergedLine>): (page: string)
    ensures PageHeader(n) + "\n" <= page
    ensures |out| == 0 ==> page == PageHeader(n) + "\n"
  {
    PageHeader(n) + "\n" + Join("\n", RenderLines(out))
  }

  /** A page header reads back: between `--- Page ` and ` ---` stand the
      decimal digits of the page number. */
  lemma PageHeaderReadsBack(n: nat)
    ensures var h := PageHeader(n);
      && |h| >= 14 && h[..9] == "--- Page " && h[|h| - 4..] == " ---"
      && (forall k :: 9 <= k < |h| - 4 ==> IsDigit(h[k]))
      && ParseNat(h[9..|h| - 4]) == n
  {
    var h := PageHeader(n);
    var d := NatToString(n);
    assert h[9..|h| - 4] == d;
    assert h[|h| - 4..] == " ---";
    ParseNatToString(n);
  }

  /** A page with one merged line is its header line followed by that line. */
  lemma RenderPageOne(n: nat, m: MergedLine)
    ensures RenderPage(n, [m]) == PageHeader(n) + "\n" + RenderLine(m)
  {
    assert RenderLines([m]) == [RenderLine(m)];
  }

  /** One more merged line adds a newline and that line's text: the body of
      a page is its rendered lines joined by newlines, whatever they hold. */
  lemma RenderPageSnoc(n: nat, out: seq<MergedLine>, m: MergedLine)
    requires |out| >= 1
    ensures RenderPage(n, out + [m]) == RenderPage(n, out) + "\n" + RenderLine(m)
  {
    assert RenderLines(out + [m]) == RenderLines(out) + [RenderLine(m)];
    JoinSnoc("\n", RenderLines(out), RenderLine(m));
  }

  /** The caption lines of a sequence of figures. */
  function Captions(figs: seq<Figure>): (cs: seq<string>)
    ensures |cs| == |figs| && forall i :: 0 <= i < |figs| ==> cs[i] == Caption(figs[i])
  {
    seq(|figs|, i requires 0 <= i < |figs| => Caption(figs[i]))
  }

  lemma RenderLinesAppend(a: seq<MergedLine>, b: seq<MergedLine>)
    ensures RenderLines(a + b) == RenderLines(a) + RenderLines(b)
  {
  }

  lemma {:induction false} RenderTextLines(ls: seq<Line>)
    ensures RenderLines(TextLines(ls)) == Texts(ls)
    decreases |ls|
  {
    if |ls| > 0 {
      RenderTextLines(ls[1..]);
      RenderLinesAppend([TextLine(ls[0].text)], TextLines(ls[1..]));
      assert Texts(ls) == [ls[0].text] + Texts(ls[1..]);
    }
  }

  lemma {:induction false} RenderFigureLines(fs: seq<Figure>)
    ensures RenderLines(FigureLines(fs)) == Captions(fs)
    decreases |fs|
  {
    if |fs| > 0 {
      RenderFigureLines(fs[1..]);
      RenderLinesAppend([FigureLine(fs[0])], FigureLines(fs[1..]));
      assert Captions(fs) == [Caption(fs[0])] + Captions(fs[1..]);
    }
  }

  /** The rendered lines of a page: the text lines up to and including the
      first line that anchors the smallest midpoint, then every caption line
      in sorted order, then the remaining text lines; with no anchoring line,
      all text lines and then the captions. */
  lemma RenderedPlaced(lines: seq<Line>, figs: seq<Figure>)
    requires Sorted(figs) && |figs| > 0
    ensures FirstAnchor(lines, figs[0].mid).Some? ==>
      var a := FirstAnchor(lines, figs[0].mid).value;
      RenderLines(Merge(lines, figs)) == Texts(lines[..a + 1]) + Captions(figs) + Texts(lines[a + 1..])
    ensures FirstAnchor(lines, figs[0].mid).None? ==>
      RenderLines(Merge(lines, figs)) == Texts(lines) + Captions(figs)
  {
    MergeIsPlaced(lines, figs);
    RenderFigureLines(figs);
    match FirstAnchor(lines, figs[0].mid)
    case Some(a) =>
      RenderTextLines(lines[..a + 1]);
      RenderTextLines(lines[a + 1..]);
      RenderLinesAppend(TextLines(lines[..a + 1]), FigureLines(figs));
      RenderLinesAppend(TextLines(lines[..a + 1]) + FigureLines(figs), TextLines(lines[a + 1..]));
    case None =>
      RenderTextLines(lines);
      RenderLinesAppend(TextLines(lines), FigureLines(figs));
  }

  lemma HeaderHasNoNewline(n: nat)
    ensures '\n' !in PageHeader(n)
  {
    var d := NatToString(n);
    assert forall k :: 0 <= k < |d| ==> d[k] != '\n';
  }

  /** The header names its page: distinct pages get distinct headers. */
  lemma PageHeaderInjective(m: nat, n: nat)
    requires PageHeader(m) == PageHeader(n)
    ensures m == n
  {
    var a, b := NatToString(m), NatToString(n);
    var h := PageHeader(m);
    assert h == "--- Page " + a + " ---" == "--- Page " + b + " ---";
    assert |a| == |b|;
    assert a == h[9..9 + |a|] == b;
    NatToStringInjective(m, n);
  }

  /** A rendered page read back line by line is its header followed by its
      rendered lines, as long as no line holds a newline of its own (page
      text lines never do; a caption may). */
  lemma RenderPageSplits(n: nat, out: seq<MergedLine>)
    requires forall i :: 0 <= i < |out| ==> '\n' !in RenderLine(out[i])
    ensures |out| > 0 ==> Split(RenderPage(n, out), '\n') == [PageHeader(n)] + RenderLines(out)
    ensures |out| == 0 ==> Split(RenderPage(n, out), '\n') == [PageHeader(n), ""]
  {
    HeaderHasNoNewline(n);
    var body := RenderLines(out);
    if |out| == 0 {
      assert RenderPage(n, out) == PageHeader(n) + ['\n'] + "";
      SplitAtFirst(PageHeader(n), '\n', "");
    } else {
      JoinCons("\n", PageHeader(n), body);
      assert RenderPage(n, out) == Join("\n", [PageHeader(n)] + body);
      JoinThenSplit([PageHeader(n)] + body, '\n');
    }
  }

  /** The figures of the whole document, or the first captioning error. */
  function DocumentFigures(caption: CaptionFn, pages: seq<PageSource>)
    : (r: Result<seq<seq<Figure>>, Fault>)
    ensures r.Success? <==> DescribePages(caption, pages).Success?
    ensures r.Failure? ==> r.error == DescribePages(caption, pages).error
    ensures r.Success? ==> |r.value| == |pages| && AllNumbers(r.value) == Range(1, TotalImages(pages))
  {
    var descs :- DescribePages(caption, pages);
    Success(NumberPages(pages, descs, 1))
  }

  /** The merged output of every page, or the first captioning error. */
  function PdfPages(caption: CaptionFn, pages: seq<PageSource>)
    : (r: Result<seq<seq<MergedLine>>, Fault>)
    ensures r.Success? <==> DocumentFigures(caption, pages).Success?
    ensures r.Failure? ==> r.error == DocumentFigures(caption, pages).error
    ensures r.Success? ==> |r.value| == |pages| && forall p :: 0 <= p < |pages| ==>
      r.value[p] == MergePage(pages[p], DocumentFigures(caption, pages).value[p])
  {
    var figss :- DocumentFigures(caption, pages);
    Success(seq(|pages|, p requires 0 <= p < |pages| => MergePage(pages[p], figss[p])))
  }

  /** The rendered pages, numbered from 1, joined by a blank line. */
  function RenderDocument(outs: seq<seq<MergedLine>>): (doc: string)
    ensures |outs| == 0 ==> doc == ""
    ensures |outs| == 1 ==> doc == RenderPage(1, outs[0])
    ensures |outs| > 1 ==> RenderPage(1, outs[0]) + "\n\n" <= doc
  {
    Join("\n\n", RenderedPages(outs))
  }

  /** The rendered pages of a document, each under its own header. */
  function RenderedPages(outs: seq<seq<MergedLine>>): (ps: seq<string>)
    ensures |ps| == |outs| && forall p :: 0 <= p < |outs| ==> ps[p] == RenderPage(p + 1, outs[p])
  {
    seq(|outs|, p requires 0 <= p < |outs| => RenderPage(p + 1, outs[p]))
  }

  /** One more page adds a blank line and that page, numbered after the
      pages before it: every page is rendered, in order, numbered from 1. */
  lemma RenderDocumentSnoc(outs: seq<seq<MergedLine>>, o: seq<MergedLine>)
    requires |outs| >= 1
    ensures RenderDocument(outs + [o]) == RenderDocument(outs) + "\n\n" + RenderPage(|outs| + 1, o)
  {
    assert RenderedPages(outs + [o]) == RenderedPages(outs) + [RenderPage(|outs| + 1, o)];
    JoinSnoc("\n\n", RenderedPages(outs), RenderPage(|outs| + 1, o));
  }

  /** Figure i of page p of a captioned document has image i's midpoint,
      and its description is that image's caption. */
  lemma DocumentFiguresMatchImages(caption: CaptionFn, pages: seq<PageSource>)
    ensures var r := DocumentFigures(caption, pages);
      r.Success? ==> forall p :: 0 <= p < |pages| ==> (|r.value[p]| == |pages[p].images|
        && forall i :: 0 <= i < |pages[p].images| ==>
             r.value[p][i].mid == Midpoint(pages[p].images[i].box)
             && caption(pages[p].images[i]) == Success(r.value[p][i].desc))
  {
    DescribePagesSuccess(caption, pages);
  }

  /** The text the PDF path produces, or the error that aborted it. */
  function ProcessPdf(client: Client, world: World, model: string, pages: seq<PageSource>)
    : (r: Result<string, Fault>)
    ensures r.Success? <==> PdfPages(CaptionWith(client, world, model), pages).Success?
    ensures r.Failure? ==> r.error == PdfPages(CaptionWith(client, world, model), pages).error
    ensures r.Success? ==> r.value == RenderDocument(PdfPages(CaptionWith(client, world, model), pages).value)
    ensures |pages| == 0 ==> r == Success("")
  {
    var outs :- PdfPages(CaptionWith(client, world, model), pages);
    Success(RenderDocument(outs))
  }

  /** What each page of a processed document holds: deleting the figure
      lines gives back exactly the page's text lines; the figure lines are
      that page's figures, each once, ascending by midpoint with ties in
      discovery order, placed as one block after the first line whose
      position is at most the smallest midpoint (or at the end). */
  lemma {:induction false} PdfPageContents(caption: CaptionFn, pages: seq<PageSource>, p: nat)
    requires p < |pages|
    ensures PdfPages(caption, pages).Success? ==>
      var out := PdfPages(caption, pages).value[p];
      var figs := DocumentFigures(caption, pages).value[p];
      && Erase(out) == Texts(PageLines(pages[p]))
      && FiguresOf(out) == SortByMid(figs)
      && multiset(FiguresOf(out)) == multiset(figs)
      && TiesByNumber(FiguresOf(out))
      && out == Placed(PageLines(pages[p]), SortByMid(figs))
  {
    if PdfPages(caption, pages).Success? {
      var figss := DocumentFigures(caption, pages).value;
      var figs := figss[p];
      MergePreservesBoth(PageLines(pages[p]), SortByMid(figs));
      MergeIsPlaced(PageLines(pages[p]), SortByMid(figs));
      var descs := DescribePages(caption, pages).value;
      assert figss == NumberPages(pages, descs, 1);
      PageNumbersIncrease(pages, descs, 1, p);
      SortKeepsDiscoveryOrder(figs);
    }
  }

  /** The figures of page `p` carry consecutive numbers in discovery order. */
  lemma {:induction false} PageNumbersIncrease(pages: seq<PageSource>, descs: seq<seq<string>>, start: nat, p: nat)
    requires Fits(pages, descs) && p < |pages|
    ensures var figs := NumberPages(pages, descs, start)[p];
      forall i, j :: 0 <= i < j < |figs| ==> figs[i].number < figs[j].number
    decreases p
  {
    if p > 0 {
      var n := |pages[0].images|;
      assert Fits(pages[1..], descs[1..]) by {
        forall q | 0 <= q < |pages[1..]| ensures |descs[1..][q]| == |pages[1..][q].images| {
          assert pages[1..][q] == pages[q + 1];
        }
      }
      PageNumbersIncrease(pages[1..], descs[1..], start + n, p - 1);
      assert NumberPages(pages, descs, start)[p] == NumberPages(pages[1..], descs[1..], start + n)[p - 1];
    }
  }

  /** Lines at 10 and 50 and one figure with midpoint 30: the figure follows
      the title. */
  lemma FigureBetweenLines(f: Figure)
    requires f.mid == 30.0
    ensures Merge([Line("Title", Some(10.0)), Line("Body text", Some(50.0))], [f])
         == [TextLine("Title"), FigureLine(f), TextLine("Body text")]
  {
    var lines := [Line("Title", Some(10.0)), Line("Body text", Some(50.0))];
    assert Lead(lines[0].pos, [f]) == 1;
    assert [f][1..] == [] && [f][..1] == [f];
    assert Merge(lines[1..], []) == [TextLine("Body text")] + FigureLines([]) + Merge([], []) by {
      assert Lead(lines[1].pos, []) == 0;
      assert lines[1..][1..] == [];
    }
    assert FigureLines([f]) == [FigureLine(f)] + FigureLines([]);
  }

  /** Lines at 10 and 50 and one figure with midpoint 60: the figure still
      follows the title, the first line positioned at or above it, and not
      the body line nearest to it. */
  lemma FigureBelowLines(f: Figure)
    requires f.mid == 60.0
    ensures Merge([Line("Title", Some(10.0)), Line("Body text", Some(50.0))], [f])
         == [TextLine("Title"), FigureLine(f), TextLine("Body text")]
  {
    var lines := [Line("Title", Some(10.0)), Line("Body text", Some(50.0))];
    assert Lead(lines[0].pos, [f]) == 1;
    assert [f][1..] == [] && [f][..1] == [f];
    assert Merge(lines[1..], []) == [TextLine("Body text")] + FigureLines([]) + Merge([], []) by {
      assert Lead(lines[1].pos, []) == 0;
      assert lines[1..][1..] == [];
    }
    assert FigureLines([f]) == [FigureLine(f)] + FigureLines([]);
  }

  /** Two pages with two images and one image: the figures are numbered 1, 2
      and 3, with no reset on the second page. */
  lemma TwoPageNumbering(a: Image, b: Image, c: Image, t1: Option<string>, t2: Option<string>,
                         w1: seq<Word>, w2: seq<Word>, d: seq<seq<string>>)
    requires d == [["first", "second"], ["third"]]
    ensures var figss := NumberPages([PageSource(t1, w1, [a, b]), PageSource(t2, w2, [c])], d, 1);
      Numbers(figss[0]) == [1, 2] && Numbers(figss[1]) == [3]
  {
    var pages := [PageSource(t1, w1, [a, b]), PageSource(t2, w2, [c])];
    var figss := NumberPages(pages, d, 1);
    assert TotalImages(pages) == 3 by {
      assert pages[1..][1..] == [];
      assert TotalImages(pages[1..]) == 1 + TotalImages(pages[1..][1..]);
    }
    assert AllNumbers(figss) == [1, 2, 3];
    assert AllNumbers(figss) == Numbers(figss[0]) + AllNumbers(figss[1..]);
    assert figss[1..][1..] == [];
    assert AllNumbers(figss[1..]) == Numbers(figss[1]);
  }
}

=== FILE: extraction.dfy ===
/** The line-position association of the PDF pipeline: a page's text is cut
    into lines at `'\n'`, and each line is given the mean `top` of every
    extracted word whose text occurs in the line as a substring, or no
    position when none does. The page text and the word list are what the
    PDF library extracted; they arrive as inputs. */
module Extraction {
  import opened Wrappers
  import opened Text

  /** One extracted word: its text and the vertical coordinate of its top edge. */
  datatype Word = Word(text: string, top: real)

  /** One line of page text with its approximate vertical position. */
  datatype Line = Line(text: string, pos: Option<real>)

  /** `page.extract_text() or ""`: a missing text reads as the empty string. */
  function PageText(extracted: Option<string>): (t: string)
    ensures extracted.Some? ==> t == extracted.value
    ensures extracted.None? ==> t == ""
  {
    extracted.ValueOr("")
  }

  /** Whether a word is associated with a line: `w['text'] in ln`. */
  predicate Matches(line: string, w: Word) {
    Contains(line, w.text)
  }

  /** The `top` of every word associated with `line`, in word order. */
  function MatchedTops(line: string, words: seq<Word>): (tops: seq<real>)
    ensures |tops| <= |words|
    ensures |tops| == 0 <==> forall i :: 0 <= i < |words| ==> !Matches(line, words[i])
    ensures forall k :: 0 <= k < |tops| ==>
      exists i :: 0 <= i < |words| && Matches(line, words[i]) && words[i].top == tops[k]
    decreases |words|
  {
    if |words| == 0 then []
    else
      var rest := MatchedTops(line, words[1..]);
      assert forall k :: 0 <= k < |rest| ==>
        exists i :: 0 <= i < |words| && Matches(line, words[i]) && words[i].top == rest[k] by {
        forall k | 0 <= k < |rest|
          ensures exists i :: 0 <= i < |words| && Matches(line, words[i]) && words[i].top == rest[k]
        {
          var i :| 0 <= i < |words[1..]| && Matches(line, words[1..][i]) && words[1..][i].top == rest[k];
          assert words[i + 1] == words[1..][i];
        }
      }
      assert (forall i :: 0 <= i < |words[1..]| ==> !Matches(line, words[1..][i]))
         <==> (forall i :: 1 <= i < |words| ==> !Matches(line, words[i])) by {
        forall i | 1 <= i < |words| ensures words[i] == words[1..][i - 1] { }
      }
      if Matches(line, words[0]) then [words[0].top] + rest else rest
  }

  function Sum(xs: seq<real>): real
    decreases |xs|
  {
    if |xs| == 0 then 0.0 else xs[0] + Sum(xs[1..])
  }

  /** The mean of a non-empty sequence, `sum(xs) / len(xs)`. */
  function Mean(xs: seq<real>): real
    requires |xs| > 0
  {
    Sum(xs) / (|xs| as real)
  }

  /** The associated tops are a filter: those of a concatenated word list are
      the tops of its first part followed by those of its second. */
  lemma {:induction false} MatchedTopsAppend(line: string, a: seq<Word>, b: seq<Word>)
    ensures MatchedTops(line, a + b) == MatchedTops(line, a) + MatchedTops(line, b)
    decreases |a|
  {
    if |a| == 0 {
      assert a + b == b;
    } else {
      assert (a + b)[0] == a[0];
      assert (a + b)[1..] == a[1..] + b;
      MatchedTopsAppend(line, a[1..], b);
    }
  }

  /** A single word contributes its `top` exactly when it occurs in the line. */
  lemma MatchedTopsSingle(line: string, w: Word)
    ensures MatchedTops(line, [w]) == if Matches(line, w) then [w.top] else []
  {
  }

  /** A line's position: the mean `top` of its associated words, or `None`. */
  function Position(line: string, words: seq<Word>): (p: Option<real>)
    ensures p.None? <==> forall i :: 0 <= i < |words| ==> !Matches(line, words[i])
    ensures p.Some? ==> |MatchedTops(line, words)| > 0 && p.value == Mean(MatchedTops(line, words))
  {
    var tops := MatchedTops(line, words);
    if |tops| == 0 then None else Some(Mean(tops))
  }

  /** Bounds on every element bound the sum. */
  lemma {:induction false} SumBounds(xs: seq<real>, lo: real, hi: real)
    requires forall k :: 0 <= k < |xs| ==> lo <= xs[k] <= hi
    ensures lo * (|xs| as real) <= Sum(xs) <= hi * (|xs| as real)
    decreases |xs|
  {
    if |xs| > 0 {
      SumBounds(xs[1..], lo, hi);
      assert forall k :: 0 <= k < |xs[1..]| ==> xs[1..][k] == xs[k + 1];
    }
  }

  /** A defined position lies between the tops of the highest and the lowest
      associated word: some associated word is at or above it, some at or below. */
  lemma PositionWithinMatches(line: string, words: seq<Word>, lo: real, hi: real)
    requires forall i :: 0 <= i < |words| && Matches(line, words[i]) ==> lo <= words[i].top <= hi
    requires Position(line, words).Some?
    ensures lo <= Position(line, words).value <= hi
  {
    var tops := MatchedTops(line, words);
    assert |tops| > 0;
    TopsWithin(line, words, lo, hi);
    MeanWithin(tops, lo, hi);
  }

  /** Bounds on every element of a non-empty sequence bound its mean. */
  lemma MeanWithin(xs: seq<real>, lo: real, hi: real)
    requires |xs| > 0
    requires forall k :: 0 <= k < |xs| ==> lo <= xs[k] <= hi
    ensures lo <= Mean(xs) <= hi
  {
    var n := |xs| as real;
    SumBounds(xs, lo, hi);
    assert lo * n <= Sum(xs) <= hi * n;
    MeanBounds(Sum(xs), n, lo, hi);
  }

  lemma TopsWithin(line: string, words: seq<Word>, lo: real, hi: real)
    requires forall i :: 0 <= i < |words| && Matches(line, words[i]) ==> lo <= words[i].top <= hi
    ensures forall k :: 0 <= k < |MatchedTops(line, words)| ==> lo <= MatchedTops(line, words)[k] <= hi
  {
    var tops := MatchedTops(line, words);
    forall k | 0 <= k < |tops| ensures lo <= tops[k] <= hi {
      var i :| 0 <= i < |words| && Matches(line, words[i]) && words[i].top == tops[k];
    }
  }

  /** A total within `lo * n` and `hi * n` has its mean within `lo` and `hi`. */
  lemma MeanBounds(x: real, n: real, lo: real, hi: real)
    requires n > 0.0 && lo * n <= x <= hi * n
    ensures lo <= x / n <= hi
  {
    assert (x / n) * n == x;
  }

  /** A line matched by two words gets the mean of both tops: `"ab"` with
      `a` at 10 and `b` at 20 is at 15, not at either word's top. */
  lemma TwoWordLine()
    ensures Position("ab", [Word("a", 10.0), Word("b", 20.0)]) == Some(15.0)
  {
    var words := [Word("a", 10.0), Word("b", 20.0)];
    assert OccursAt("ab", "a", 0);
    assert OccursAt("ab", "b", 1);
    ContainsIff("ab", "a");
    ContainsIff("ab", "b");
    assert words == [words[0]] + [words[1]];
    MatchedTopsAppend("ab", [words[0]], [words[1]]);
    MatchedTopsSingle("ab", words[0]);
    MatchedTopsSingle("ab", words[1]);
    assert MatchedTops("ab", words) == [10.0, 20.0];
    assert Sum([10.0, 20.0]) == 30.0;
  }

  /** The lines of a page with their positions, one per piece of
      `text.split('\n')`, in order. */
  function LinePositions(text: string, words: seq<Word>): (lines: seq<Line>)
    ensures |lines| == |Split(text, '\n')| >= 1
    ensures forall i :: 0 <= i < |lines| ==>
      lines[i].text == Split(text, '\n')[i] && '\n' !in lines[i].text
      && lines[i].pos == Position(lines[i].text, words)
      && (lines[i].pos.None? <==> forall j :: 0 <= j < |words| ==> !Matches(lines[i].text, words[j]))
  {
    var pieces := Split(text, '\n');
    seq(|pieces|, i requires 0 <= i < |pieces| => Line(pieces[i], Position(pieces[i], words)))
  }

  function Texts(lines: seq<Line>): (ts: seq<string>)
    ensures |ts| == |lines| && forall i :: 0 <= i < |lines| ==> ts[i] == lines[i].text
  {
    seq(|lines|, i requires 0 <= i < |lines| => lines[i].text)
  }

  /** Re-joining the lines with `'\n'` gives back the page text. */
  lemma LinesRejoin(text: string, words: seq<Word>)
    ensures Join("\n", Texts(LinePositions(text, words))) == text
  {
    assert Texts(LinePositions(text, words)) == Split(text, '\n');
    SplitThenJoin(text, '\n');
  }

  /** A page with no text has exactly one line, the empty one. */
  lemma EmptyPageOneLine(extracted: Option<string>, words: seq<Word>)
    requires extracted.None? || extracted == Some("")
    ensures Texts(LinePositions(PageText(extracted), words)) == [""]
  {
  }
}

=== FILE: figures.dfy ===
/** Figures of a page: each image box becomes a figure keyed by its vertical
    midpoint and labelled `Figure N: <description>`, and a page's figures are
    put in ascending midpoint order by a stable sort (`figs.sort(key=...)`). */
module Figures {
  import opened Text

  /** An image's bounding box as the PDF library reports it. */
  datatype ImageBox = ImageBox(x0: real, y0: real, x1: real, y1: real)

  /** A captioned image: its document-wide number, its vertical midpoint and
      the description the backend returned. */
  datatype Figure = Figure(number: nat, mid: real, desc: string)

  /** `y0 + (y1 - y0) / 2`: the point halfway between the box's two edges. */
  function Midpoint(b: ImageBox): (m: real)
    ensures m - b.y0 == b.y1 - m
  {
    b.y0 + (b.y1 - b.y0) / 2.0
  }

  /** The caption line `f"Figure {n}: {desc}"`. */
  function Caption(f: Figure): (c: string)
    ensures "Figure " <= c && |c| >= |f.desc| && c[|c| - |f.desc|..] == f.desc
  {
    "Figure " + NatToString(f.number) + ": " + f.desc
  }

  /** A caption reads back: after `Figure ` come the decimal digits of the
      figure's number, then `: `, then the description. */
  lemma CaptionReadsBack(f: Figure)
    ensures var c := Caption(f); var e := |c| - |f.desc| - 2;
      && 7 <= e && c[..7] == "Figure " && c[e..e + 2] == ": " && c[e + 2..] == f.desc
      && (forall k :: 7 <= k < e ==> IsDigit(c[k]))
      && ParseNat(c[7..e]) == f.number
  {
    var c := Caption(f);
    var d := NatToString(f.number);
    var e := |c| - |f.desc| - 2;
    assert e == 7 + |d|;
    assert c[7..e] == d;
    assert c[e..e + 2] == ": ";
    assert c[e + 2..] == f.desc;
    ParseNatToString(f.number);
  }

  /** A caption determines its figure's number and description. */
  lemma CaptionInjective(f: Figure, g: Figure)
    requires Caption(f) == Caption(g)
    ensures f.number == g.number && f.desc == g.desc
  {
    var a, b := NatToString(f.number), NatToString(g.number);
    var cf, cg := Caption(f), Caption(g);
    assert cf == "Figure " + a + ": " + f.desc;
    assert cg == "Figure " + b + ": " + g.desc;
    assert cf[7 + |a|] == ':' && cg[7 + |b|] == ':';
    assert a == cf[7..7 + |a|] == cg[7..7 + |b|] == b;
    NatToStringInjective(f.number, g.number);
    assert f.desc == cf[9 + |a|..] == cg[9 + |b|..] == g.desc;
  }

  /** The figures of one page, numbered from `start` in discovery order. */
  function NumberPage(boxes: seq<ImageBox>, descs: seq<string>, start: nat): (figs: seq<Figure>)
    requires |boxes| == |descs|
    ensures |figs| == |boxes|
    ensures forall i :: 0 <= i < |figs| ==> figs[i] == Figure(start + i, Midpoint(boxes[i]), descs[i])
  {
    seq(|boxes|, i requires 0 <= i < |boxes| => Figure(start + i, Midpoint(boxes[i]), descs[i]))
  }

  /** Ascending by midpoint. */
  predicate Sorted(figs: seq<Figure>) {
    forall i, j :: 0 <= i < j < |figs| ==> figs[i].mid <= figs[j].mid
  }

  /** The figures with midpoint `m`, in their order in `figs`. */
  function SameMid(figs: seq<Figure>, m: real): seq<Figure>
    decreases |figs|
  {
    if |figs| == 0 then []
    else (if figs[0].mid == m then [figs[0]] else []) + SameMid(figs[1..], m)
  }

  /** `x` placed before the first element whose midpoint is at least its own. */
  function Insert(x: Figure, t: seq<Figure>): (r: seq<Figure>)
    ensures multiset(r) == multiset(t) + multiset{x}
    decreases |t|
  {
    if |t| == 0 then [x]
    else if x.mid <= t[0].mid then [x] + t
    else
      assert t == [t[0]] + t[1..];
      [t[0]] + Insert(x, t[1..])
  }

  lemma SortedCons(h: Figure, u: seq<Figure>)
    requires Sorted(u)
    requires forall k :: 0 <= k < |u| ==> h.mid <= u[k].mid
    ensures Sorted([h] + u)
  {
    var r := [h] + u;
    forall i, j | 0 <= i < j < |r| ensures r[i].mid <= r[j].mid {
      assert r[j] == u[j - 1];
      if i > 0 { assert r[i] == u[i - 1]; }
    }
  }

  lemma {:induction false} InsertSorted(x: Figure, t: seq<Figure>)
    requires Sorted(t)
    ensures Sorted(Insert(x, t))
    decreases |t|
  {
    if |t| > 0 && x.mid > t[0].mid {
      var tail := t[1..];
      assert Sorted(tail) by {
        forall i, j | 0 <= i < j < |tail| ensures tail[i].mid <= tail[j].mid {
          assert tail[i] == t[i + 1] && tail[j] == t[j + 1];
        }
      }
      InsertSorted(x, tail);
      var u := Insert(x, tail);
      forall k | 0 <= k < |u| ensures t[0].mid <= u[k].mid {
        var y := u[k];
        assert y in multiset(u);
        if y != x {
          assert y in multiset(tail);
          var n :| 0 <= n < |tail| && tail[n] == y;
          assert t[n + 1] == y;
        }
      }
      SortedCons(t[0], u);
    }
  }

  lemma {:induction false} InsertSameMid(x: Figure, t: seq<Figure>, m: real)
    ensures SameMid(Insert(x, t), m) == if m == x.mid then [x] + SameMid(t, m) else SameMid(t, m)
    decreases |t|
  {
    if |t| == 0 {
      assert SameMid([x], m) == (if x.mid == m then [x] else []) + SameMid([], m);
    } else if x.mid <= t[0].mid {
      assert ([x] + t)[1..] == t;
    } else {
      InsertSameMid(x, t[1..], m);
      var u := Insert(x, t[1..]);
      assert ([t[0]] + u)[1..] == u;
    }
  }

  /** `figs.sort(key=lambda f: f[0])`: Python's stable sort by midpoint. The
      result is ascending, a permutation of the input, and keeps the input's
      order among figures with equal midpoints. */
  function SortByMid(figs: seq<Figure>): (r: seq<Figure>)
    ensures Sorted(r)
    ensures multiset(r) == multiset(figs)
    ensures forall m :: SameMid(r, m) == SameMid(figs, m)
    decreases |figs|
  {
    if |figs| == 0 then []
    else
      var t := SortByMid(figs[1..]);
      assert figs == [figs[0]] + figs[1..];
      InsertSorted(figs[0], t);
      assert forall m :: SameMid(Insert(figs[0], t), m) == SameMid(figs, m) by {
        forall m ensures SameMid(Insert(figs[0], t), m) == SameMid(figs, m) {
          InsertSameMid(figs[0], t, m);
        }
      }
      Insert(figs[0], t)
  }

  lemma {:induction false} SameMidEmpty(figs: seq<Figure>, m: real)
    ensures SameMid(figs, m) == [] <==> forall i :: 0 <= i < |figs| ==> figs[i].mid != m
    decreases |figs|
  {
    if |figs| > 0 {
      SameMidEmpty(figs[1..], m);
      assert forall i :: 1 <= i < |figs| ==> figs[i] == figs[1..][i - 1];
    }
  }

  lemma SameMidHead(figs: seq<Figure>)
    requires |figs| > 0
    ensures SameMid(figs, figs[0].mid) != []
  {
  }

  /** Dropping the head removes it from its own midpoint's subsequence only. */
  lemma SameMidTail(a: seq<Figure>, m: real)
    requires |a| > 0
    ensures SameMid(a[1..], m) == if a[0].mid == m then SameMid(a, m)[1..] else SameMid(a, m)
  {
  }

  /** In an ascending sequence, a midpoint that occurs is at least the head's. */
  lemma OccursAboveHead(a: seq<Figure>, m: real)
    requires Sorted(a) && |a| > 0 && SameMid(a, m) != []
    ensures a[0].mid <= m
  {
    SameMidEmpty(a, m);
    var i :| 0 <= i < |a| && a[i].mid == m;
  }

  /** Two ascending sequences with the same per-midpoint subsequences start
      with the same figure. */
  lemma HeadsAgree(a: seq<Figure>, b: seq<Figure>)
    requires Sorted(a) && Sorted(b) && |a| > 0 && |b| > 0
    requires forall m :: SameMid(a, m) == SameMid(b, m)
    ensures a[0] == b[0]
  {
    SameMidHead(a);
    SameMidHead(b);
    OccursAboveHead(a, b[0].mid);
    OccursAboveHead(b, a[0].mid);
    var m0 := a[0].mid;
    assert SameMid(a, m0)[0] == a[0];
    assert SameMid(b, m0)[0] == b[0];
  }

  /** Sortedness and the per-midpoint order fix a sequence completely: every
      stable sort by midpoint gives the same result as `SortByMid`. */
  lemma {:induction false} StableSortUnique(a: seq<Figure>, b: seq<Figure>)
    requires Sorted(a) && Sorted(b)
    requires forall m :: SameMid(a, m) == SameMid(b, m)
    ensures a == b
    decreases |a|
  {
    if |a| == 0 && |b| > 0 {
      SameMidHead(b);
      assert false;
    } else if |b| == 0 && |a| > 0 {
      SameMidHead(a);
      assert false;
    } else if |a| > 0 {
      HeadsAgree(a, b);
      forall m ensures SameMid(a[1..], m) == SameMid(b[1..], m) {
        SameMidTail(a, m);
        SameMidTail(b, m);
      }
      SortedTail(a);
      SortedTail(b);
      StableSortUnique(a[1..], b[1..]);
      assert a == [a[0]] + a[1..];
      assert b == [b[0]] + b[1..];
    }
  }

  lemma SortedTail(a: seq<Figure>)
    requires Sorted(a) && |a| > 0
    ensures Sorted(a[1..])
  {
    forall i, j | 0 <= i < j < |a[1..]| ensures a[1..][i].mid <= a[1..][j].mid {
      assert a[1..][i] == a[i + 1] && a[1..][j] == a[j + 1];
    }
  }

  /** Figures with equal midpoints are in increasing number order. */
  predicate TiesByNumber(figs: seq<Figure>) {
    forall i, j :: 0 <= i < j < |figs| && figs[i].mid == figs[j].mid ==> figs[i].number < figs[j].number
  }

  lemma InInsert(x: Figure, t: seq<Figure>, y: Figure)
    requires y in Insert(x, t)
    ensures y == x || y in t
  {
    assert y in multiset(Insert(x, t));
  }

  lemma TiesTail(t: seq<Figure>)
    requires TiesByNumber(t) && |t| > 0
    ensures TiesByNumber(t[1..])
  {
    forall i, j | 0 <= i < j < |t[1..]| && t[1..][i].mid == t[1..][j].mid
      ensures t[1..][i].number < t[1..][j].number
    {
      assert t[1..][i] == t[i + 1] && t[1..][j] == t[j + 1];
    }
  }

  lemma ConsKeepsTies(h: Figure, u: seq<Figure>)
    requires TiesByNumber(u)
    requires forall k :: 0 <= k < |u| && u[k].mid == h.mid ==> h.number < u[k].number
    ensures TiesByNumber([h] + u)
  {
    var r := [h] + u;
    forall i, j | 0 <= i < j < |r| && r[i].mid == r[j].mid
      ensures r[i].number < r[j].number
    {
      assert r[j] == u[j - 1];
      if i > 0 { assert r[i] == u[i - 1]; }
    }
  }

  lemma {:induction false} InsertKeepsTies(x: Figure, t: seq<Figure>)
    requires TiesByNumber(t)
    requires forall y :: y in t ==> x.number < y.number
    ensures TiesByNumber(Insert(x, t))
    decreases |t|
  {
    if |t| == 0 {
      assert Insert(x, t) == [x];
    } else if x.mid <= t[0].mid {
      assert forall k :: 0 <= k < |t| ==> t[k] in t;
      ConsKeepsTies(x, t);
    } else {
      TiesTail(t);
      InsertKeepsTies(x, t[1..]);
      var u := Insert(x, t[1..]);
      forall k | 0 <= k < |u| && u[k].mid == t[0].mid
        ensures t[0].number < u[k].number
      {
        InInsert(x, t[1..], u[k]);
        var n :| 0 <= n < |t[1..]| && t[1..][n] == u[k];
        assert t[n + 1] == u[k];
      }
      ConsKeepsTies(t[0], u);
    }
  }

  /** When a page's figures arrive in increasing number order, as discovery
      numbering makes them, figures sharing a midpoint stay in number order
      after the sort. */
  lemma {:induction false} SortKeepsDiscoveryOrder(figs: seq<Figure>)
    requires forall i, j :: 0 <= i < j < |figs| ==> figs[i].number < figs[j].number
    ensures TiesByNumber(SortByMid(figs))
    decreases |figs|
  {
    if |figs| > 0 {
      SortKeepsDiscoveryOrder(figs[1..]);
      var t := SortByMid(figs[1..]);
      forall y | y in t ensures figs[0].number < y.number {
        assert y in multiset(t);
        assert y in multiset(figs[1..]);
        var k :| 0 <= k < |figs[1..]| && figs[1..][k] == y;
        assert figs[k + 1] == y;
      }
      InsertKeepsTies(figs[0], t);
    }
  }
}

=== FILE: local_client.dfy ===
/** The local captioning backend, `LocalLLMClient.chat.completions.create`:
    an image payload size guard, one HTTP POST of the request body, a timeout
    that degrades to a sentinel response, and every other failure raised. The
    network is a parameter: `net` says what the POST of a given body would
    come back with. */
module LocalClient {
  import opened Wrappers
  import opened Text
  import opened Chat

  /** The endpoint the client posts to unless told otherwise. */
  const DefaultBaseUrl: string := "http://127.0.0.1:1234/v1/chat/completions"

  /** The largest image payload, in characters, the guard lets through. */
  const MaxImagePayload: nat := 3000000

  const TooLargeText: string := "Image too large to process."
  const TimedOutText: string := "The LLM request timed out."

  /** The JSON request body `{model, messages, temperature, max_tokens, stream}`. */
  datatype Request = Request(
    model: string,
    messages: seq<ChatMessage>,
    temperature: real,
    maxTokens: int,
    stream: bool)

  /** What a POST comes back with: an HTTP reply whose body parsed as JSON
      (`body == None` when `response.json()` raises), a timeout, or any other
      request failure. */
  datatype Transport = Reply(status: int, body: Option<Json>) | Timeout | Broken(detail: string)

  /** What one call did: its result, and the request body posted, if any. */
  datatype Exchange = Exchange(result: Result<ChatResponse, Fault>, posted: Option<Request>)

  /** The size guard's verdict on a message list or one part of it. */
  datatype Guard = Clear | TooLarge | NoComma

  /** A part the guard inspects: an `image_url` part whose URL mentions `data:image`. */
  predicate Inspected(p: Part) {
    p.ImageUrlPart? && Contains(p.url, "data:image")
  }

  /** The guard's verdict on one part: the payload is the text between the
      URL's first and second commas, `url.split(",")[1]`. */
  function PartGuard(p: Part): (g: Guard)
    ensures !Inspected(p) ==> g == Clear
    ensures Inspected(p) ==> (g == NoComma <==> ',' !in p.url)
    ensures Inspected(p) && |Split(p.url, ',')| >= 2 ==>
      (g == TooLarge <==> |Split(p.url, ',')[1]| > MaxImagePayload)
  {
    if !Inspected(p) then Clear
    else if |Split(p.url, ',')| < 2 then (SplitHasSecond(p.url, ','); NoComma)
    else if |Split(p.url, ',')[1]| > MaxImagePayload then (SplitHasSecond(p.url, ','); TooLarge)
    else (SplitHasSecond(p.url, ','); Clear)
  }

  /** The guard over the parts of one message, in order: the first part with a
      verdict other than `Clear` decides. */
  function ScanParts(ps: seq<Part>): (g: Guard)
    decreases |ps|
  {
    if |ps| == 0 then Clear
    else if PartGuard(ps[0]) != Clear then PartGuard(ps[0])
    else ScanParts(ps[1..])
  }

  /** The guard over all messages, in order; plain-string contents are skipped. */
  function ScanMessages(ms: seq<ChatMessage>): (g: Guard)
    ensures g == Clear <==>
      forall i :: 0 <= i < |ms| && ms[i].content.Parts? ==> ScanParts(ms[i].content.parts) == Clear
    decreases |ms|
  {
    if |ms| == 0 then Clear
    else if ms[0].content.Parts? && ScanParts(ms[0].content.parts) != Clear
    then ScanParts(ms[0].content.parts)
    else
      assert forall i :: 1 <= i < |ms| ==> ms[i] == ms[1..][i - 1];
      ScanMessages(ms[1..])
  }

  /** The parts of every multi-part message, in order. */
  function AllParts(ms: seq<ChatMessage>): seq<Part>
    decreases |ms|
  {
    if |ms| == 0 then []
    else (if ms[0].content.Parts? then ms[0].content.parts else []) + AllParts(ms[1..])
  }

  /** The scan of a part list is clear exactly when every part is, and
      otherwise is the verdict of the first part that is not. */
  lemma {:induction false} ScanPartsFirst(ps: seq<Part>)
    ensures ScanParts(ps) == Clear <==> forall i :: 0 <= i < |ps| ==> PartGuard(ps[i]) == Clear
    ensures ScanParts(ps) != Clear ==>
      (exists i :: 0 <= i < |ps| && ScanParts(ps) == PartGuard(ps[i])
         && forall j :: 0 <= j < i ==> PartGuard(ps[j]) == Clear)
    decreases |ps|
  {
    if |ps| > 0 {
      ScanPartsFirst(ps[1..]);
      if PartGuard(ps[0]) != Clear {
        assert ScanParts(ps) == PartGuard(ps[0]);
      } else if ScanParts(ps[1..]) != Clear {
        var i :| 0 <= i < |ps[1..]| && ScanParts(ps[1..]) == PartGuard(ps[1..][i])
          && forall j :: 0 <= j < i ==> PartGuard(ps[1..][j]) == Clear;
        assert ScanParts(ps) == PartGuard(ps[i + 1]);
        assert forall j :: 0 <= j < i + 1 ==> PartGuard(ps[j]) == Clear by {
          forall j | 0 <= j < i + 1 ensures PartGuard(ps[j]) == Clear {
            if j > 0 { assert ps[j] == ps[1..][j - 1]; }
          }
        }
      } else {
        assert forall i :: 0 <= i < |ps| ==> PartGuard(ps[i]) == Clear by {
          forall i | 0 <= i < |ps| ensures PartGuard(ps[i]) == Clear {
            if i > 0 { assert ps[i] == ps[1..][i - 1]; }
          }
        }
      }
    }
  }

  lemma {:induction false} ScanPartsAppend(a: seq<Part>, b: seq<Part>)
    ensures ScanParts(a + b) == (if ScanParts(a) != Clear then ScanParts(a) else ScanParts(b))
    decreases |a|
  {
    if |a| > 0 {
      assert (a + b)[0] == a[0];
      assert (a + b)[1..] == a[1..] + b;
      ScanPartsAppend(a[1..], b);
    } else {
      assert a + b == b;
    }
  }

  /** Scanning message by message is scanning the concatenation of their parts:
      the guard sees the parts of the whole conversation as one sequence. */
  lemma {:induction false} ScanMessagesIsScanOfParts(ms: seq<ChatMessage>)
    ensures ScanMessages(ms) == ScanParts(AllParts(ms))
    decreases |ms|
  {
    if |ms| > 0 {
      ScanMessagesIsScanOfParts(ms[1..]);
      var first := if ms[0].content.Parts? then ms[0].content.parts else [];
      ScanPartsAppend(first, AllParts(ms[1..]));
    }
  }

  /** `create(model, messages, temperature=0.7, max_tokens=-1, stream=False)`
      of the local backend, with `net` standing for the HTTP POST. */
  function Create(
    net: Request -> Transport,
    model: string,
    messages: seq<ChatMessage>,
    temperature: real := 0.7,
    maxTokens: int := -1,
    stream: bool := false): (x: Exchange)
    ensures ScanMessages(messages) == TooLarge ==>
      x == Exchange(Success(ChatResponse(Some("assistant"), TooLargeText)), None)
    ensures ScanMessages(messages) == NoComma ==>
      x == Exchange(Failure(ImageUrlWithoutComma), None)
    ensures ScanMessages(messages) == Clear ==>
      x.posted == Some(Request(model, messages, temperature, maxTokens, stream))
    ensures x.posted.Some? ==> match net(x.posted.value)
      case Timeout => x.result == Success(ChatResponse(Some("assistant"), TimedOutText))
      case Broken(d) => x.result == Failure(TransportFailure(d))
      case Reply(_, None) => x.result == Failure(BodyNotJson)
      case Reply(_, Some(j)) => x.result == Decode(j)
  {
    match ScanMessages(messages)
    case TooLarge => Exchange(Success(Sentinel(TooLargeText)), None)
    case NoComma => Exchange(Failure(ImageUrlWithoutComma), None)
    case Clear =>
      var req := Request(model, messages, temperature, maxTokens, stream);
      var result := match net(req)
        case Timeout => Success(Sentinel(TimedOutText))
        case Broken(d) => Failure(TransportFailure(d))
        case Reply(_, body) =>
          if body.None? then Failure(BodyNotJson) else Decode(body.value);
      Exchange(result, Some(req))
  }

  /** The HTTP status never matters: a non-200 reply is parsed like a 200 one. */
  lemma StatusIgnored(
    net1: Request -> Transport, net2: Request -> Transport,
    model: string, messages: seq<ChatMessage>, temperature: real, maxTokens: int, stream: bool)
    requires forall r ::
      (net1(r) == net2(r) || (net1(r).Reply? && net2(r).Reply? && net1(r).body == net2(r).body))
    ensures Create(net1, model, messages, temperature, maxTokens, stream)
         == Create(net2, model, messages, temperature, maxTokens, stream)
  {
  }
}

=== FILE: reading_order.dfy ===
/** The reading-order merge: a single forward pass over a page's lines with a
    cursor into the page's sorted figures. After each line, pending figures
    are emitted while the line has a position and the next figure's midpoint
    is at least that position; figures still pending after the last line go
    at the end. Because the figures are ascending, the first line that lets
    one figure through lets all of them through: the figures form one block
    right after the first line whose position is defined and at most the
    smallest midpoint. */
module ReadingOrder {
  import opened Wrappers
  import opened Extraction
  import opened Figures

  /** One line of a page's merged output. */
  datatype MergedLine = TextLine(text: string) | FigureLine(fig: Figure)

  /** The loop's test `avg_y is not None and fig_y >= avg_y`. */
  predicate Emits(pos: Option<real>, f: Figure) {
    pos.Some? && f.mid >= pos.value
  }

  /** How many of the pending figures the inner loop emits after a line at
      `pos`: the length of the longest prefix that passes the test. */
  function Lead(pos: Option<real>, figs: seq<Figure>): (k: nat)
    ensures k <= |figs|
    ensures forall i :: 0 <= i < k ==> Emits(pos, figs[i])
    ensures k < |figs| ==> !Emits(pos, figs[k])
    decreases |figs|
  {
    if |figs| == 0 || !Emits(pos, figs[0]) then 0 else 1 + Lead(pos, figs[1..])
  }

  function TextLines(lines: seq<Line>): seq<MergedLine>
    decreases |lines|
  {
    if |lines| == 0 then [] else [TextLine(lines[0].text)] + TextLines(lines[1..])
  }

  function FigureLines(figs: seq<Figure>): seq<MergedLine>
    decreases |figs|
  {
    if |figs| == 0 then [] else [FigureLine(figs[0])] + FigureLines(figs[1..])
  }

  lemma {:induction false} FigureLinesAppend(a: seq<Figure>, b: seq<Figure>)
    ensures FigureLines(a + b) == FigureLines(a) + FigureLines(b)
    decreases |a|
  {
    if |a| == 0 {
      assert a + b == b;
    } else {
      assert (a + b)[1..] == a[1..] + b;
      FigureLinesAppend(a[1..], b);
    }
  }

  /** The merged output of a page, as the loop builds it. */
  function Merge(lines: seq<Line>, figs: seq<Figure>): seq<MergedLine>
    decreases |lines|
  {
    if |lines| == 0 then FigureLines(figs)
    else
      var k := Lead(lines[0].pos, figs);
      [TextLine(lines[0].text)] + FigureLines(figs[..k]) + Merge(lines[1..], figs[k..])
  }

  /** The text lines of a merged output, figures deleted. */
  function Erase(out: seq<MergedLine>): seq<string>
    decreases |out|
  {
    if |out| == 0 then []
    else
      match out[0]
      case TextLine(text) => [text] + Erase(out[1..])
      case FigureLine(_) => Erase(out[1..])
  }

  /** The figures of a merged output, in output order. */
  function FiguresOf(out: seq<MergedLine>): seq<Figure>
    decreases |out|
  {
    if |out| == 0 then []
    else
      match out[0]
      case TextLine(_) => FiguresOf(out[1..])
      case FigureLine(f) => [f] + FiguresOf(out[1..])
  }

  lemma {:induction false} EraseAppend(a: seq<MergedLine>, b: seq<MergedLine>)
    ensures Erase(a + b) == Erase(a) + Erase(b)
    decreases |a|
  {
    if |a| == 0 {
      assert a + b == b;
    } else {
      assert (a + b)[0] == a[0];
      assert (a + b)[1..] == a[1..] + b;
      EraseAppend(a[1..], b);
    }
  }

  lemma {:induction false} FiguresOfAppend(a: seq<MergedLine>, b: seq<MergedLine>)
    ensures FiguresOf(a + b) == FiguresOf(a) + FiguresOf(b)
    decreases |a|
  {
    if |a| == 0 {
      assert a + b == b;
    } else {
      assert (a + b)[0] == a[0];
      assert (a + b)[1..] == a[1..] + b;
      FiguresOfAppend(a[1..], b);
    }
  }

  lemma {:induction false} EraseTextLines(lines: seq<Line>)
    ensures Erase(TextLines(lines)) == Texts(lines)
    ensures FiguresOf(TextLines(lines)) == []
    decreases |lines|
  {
    if |lines| > 0 {
      EraseTextLines(lines[1..]);
      assert Texts(lines) == [lines[0].text] + Texts(lines[1..]);
    }
  }

  lemma {:induction false} EraseFigureLines(figs: seq<Figure>)
    ensures Erase(FigureLines(figs)) == []
    ensures FiguresOf(FigureLines(figs)) == figs
    decreases |figs|
  {
    if |figs| > 0 {
      EraseFigureLines(figs[1..]);
      assert figs == [figs[0]] + figs[1..];
    }
  }

  /** Deleting the figures from a page's merged output gives back the page's
      lines, and keeping only the figures gives back the figure list: every
      figure appears exactly once, in the order it was handed to the merge. */
  lemma {:induction false} MergePreservesBoth(lines: seq<Line>, figs: seq<Figure>)
    ensures Erase(Merge(lines, figs)) == Texts(lines)
    ensures FiguresOf(Merge(lines, figs)) == figs
  {
    MergeErase(lines, figs);
    MergeFigures(lines, figs);
  }

  /** One step of the merge: the first line, its emitted figures, the rest. */
  lemma MergeStep(lines: seq<Line>, figs: seq<Figure>)
    requires |lines| > 0
    ensures var k := Lead(lines[0].pos, figs);
      Merge(lines, figs) == [TextLine(lines[0].text)] + FigureLines(figs[..k]) + Merge(lines[1..], figs[k..])
  {
  }

  lemma {:induction false} MergeErase(lines: seq<Line>, figs: seq<Figure>)
    ensures Erase(Merge(lines, figs)) == Texts(lines)
    decreases |lines|
  {
    if |lines| == 0 {
      EraseFigureLines(figs);
    } else {
      var k := Lead(lines[0].pos, figs);
      var head := [TextLine(lines[0].text)];
      var mid := FigureLines(figs[..k]);
      var tail := Merge(lines[1..], figs[k..]);
      MergeStep(lines, figs);
      MergeErase(lines[1..], figs[k..]);
      EraseFigureLines(figs[..k]);
      EraseAppend(head, mid);
      EraseAppend(head + mid, tail);
      assert Erase(head) == [lines[0].text];
      assert Texts(lines) == [lines[0].text] + Texts(lines[1..]);
    }
  }

  lemma {:induction false} MergeFigures(lines: seq<Line>, figs: seq<Figure>)
    ensures FiguresOf(Merge(lines, figs)) == figs
    decreases |lines|
  {
    if |lines| == 0 {
      EraseFigureLines(figs);
    } else {
      var k := Lead(lines[0].pos, figs);
      var head := [TextLine(lines[0].text)];
      var mid := FigureLines(figs[..k]);
      var tail := Merge(lines[1..], figs[k..]);
      MergeStep(lines, figs);
      MergeFigures(lines[1..], figs[k..]);
      EraseFigureLines(figs[..k]);
      FiguresOfAppend(head, mid);
      FiguresOfAppend(head + mid, tail);
      assert FiguresOf(head) == [];
      assert figs == figs[..k] + figs[k..];
    }
  }

  /** With no figures the merged output is the page's lines. */
  lemma {:induction false} MergeNoFigures(lines: seq<Line>)
    ensures Merge(lines, []) == TextLines(lines)
    decreases |lines|
  {
    if |lines| > 0 {
      MergeNoFigures(lines[1..]);
    }
  }

  /** Whether a line can anchor a block of figures whose smallest midpoint is `m`. */
  predicate Anchors(l: Line, m: real) {
    l.pos.Some? && l.pos.value <= m
  }

  /** The first line able to anchor figures whose smallest midpoint is `m`. */
  function FirstAnchor(lines: seq<Line>, m: real): (a: Option<nat>)
    ensures a.Some? ==> a.value < |lines| && Anchors(lines[a.value], m)
    ensures a.Some? ==> forall j :: 0 <= j < a.value ==> !Anchors(lines[j], m)
    ensures a.None? ==> forall j :: 0 <= j < |lines| ==> !Anchors(lines[j], m)
    decreases |lines|
  {
    if |lines| == 0 then None
    else if Anchors(lines[0], m) then Some(0)
    else
      match FirstAnchor(lines[1..], m)
      case None => None
      case Some(a) => Some(a + 1)
  }

  /** Where the figures of a page end up, stated directly: the whole sorted
      block right after the first anchoring line, or after the last line when
      no line anchors it. */
  function Placed(lines: seq<Line>, figs: seq<Figure>): seq<MergedLine> {
    if |figs| == 0 then TextLines(lines)
    else
      match FirstAnchor(lines, figs[0].mid)
      case Some(a) => TextLines(lines[..a + 1]) + FigureLines(figs) + TextLines(lines[a + 1..])
      case None => TextLines(lines) + FigureLines(figs)
  }

  /** On ascending figures, a line that anchors the first figure lets all of
      them through. */
  lemma {:induction false} LeadAll(pos: Option<real>, figs: seq<Figure>)
    requires Sorted(figs) && |figs| > 0
    requires pos.Some? && pos.value <= figs[0].mid
    ensures Lead(pos, figs) == |figs|
  {
  }

  /** A first line that anchors the figures takes all of them. */
  lemma {:induction false} MergeAnchoredFirst(lines: seq<Line>, figs: seq<Figure>)
    requires Sorted(figs) && |figs| > 0 && |lines| > 0
    requires Anchors(lines[0], figs[0].mid)
    ensures Merge(lines, figs) == [TextLine(lines[0].text)] + FigureLines(figs) + TextLines(lines[1..])
  {
    LeadAll(lines[0].pos, figs);
    MergeNoFigures(lines[1..]);
    assert figs[..|figs|] == figs;
    assert figs[|figs|..] == [];
  }

  /** A first line that does not anchor the figures takes none of them. */
  lemma {:induction false} MergeSkipsFirst(lines: seq<Line>, figs: seq<Figure>)
    requires |figs| > 0 && |lines| > 0
    requires !Anchors(lines[0], figs[0].mid)
    ensures Merge(lines, figs) == [TextLine(lines[0].text)] + Merge(lines[1..], figs)
  {
    assert Lead(lines[0].pos, figs) == 0;
    assert figs[..0] == [] && figs[0..] == figs;
  }

  lemma {:induction false} FirstAnchorSkipsFirst(lines: seq<Line>, m: real)
    requires |lines| > 0 && !Anchors(lines[0], m)
    ensures FirstAnchor(lines, m).None? <==> FirstAnchor(lines[1..], m).None?
    ensures FirstAnchor(lines, m).Some? ==> FirstAnchor(lines, m).value == FirstAnchor(lines[1..], m).value + 1
  {
  }

  lemma {:induction false} PlacedSkipsFirst(lines: seq<Line>, figs: seq<Figure>)
    requires |figs| > 0 && |lines| > 0
    requires !Anchors(lines[0], figs[0].mid)
    ensures Placed(lines, figs) == [TextLine(lines[0].text)] + Placed(lines[1..], figs)
  {
    FirstAnchorSkipsFirst(lines, figs[0].mid);
    if FirstAnchor(lines[1..], figs[0].mid).None? {
    } else {
      PlacedSkipsFirstAnchored(lines, figs, FirstAnchor(lines[1..], figs[0].mid).value);
    }
  }

  lemma {:induction false} PlacedSkipsFirstAnchored(lines: seq<Line>, figs: seq<Figure>, a: nat)
    requires |figs| > 0 && a + 1 < |lines|
    requires FirstAnchor(lines, figs[0].mid) == Some(a + 1)
    requires FirstAnchor(lines[1..], figs[0].mid) == Some(a)
    ensures Placed(lines, figs) == [TextLine(lines[0].text)] + Placed(lines[1..], figs)
  {
    var rest := lines[1..];
    var pre := lines[..a + 2];
    var x := [TextLine(lines[0].text)];
    var f := FigureLines(figs);
    assert pre[0] == lines[0];
    assert pre[1..] == rest[..a + 1];
    assert lines[a + 2..] == rest[a + 1..];
    assert TextLines(pre) == x + TextLines(rest[..a + 1]);
    assert Placed(lines, figs) == TextLines(pre) + f + TextLines(rest[a + 1..]);
    assert Placed(rest, figs) == TextLines(rest[..a + 1]) + f + TextLines(rest[a + 1..]);
    Regroup3(x, TextLines(rest[..a + 1]), f, TextLines(rest[a + 1..]));
  }

  lemma Regroup3(x: seq<MergedLine>, a: seq<MergedLine>, f: seq<MergedLine>, t: seq<MergedLine>)
    ensures (x + a) + f + t == x + (a + f + t)
  {
  }

  /** The loop's output on ascending figures is the placement stated in
      `Placed`: the figures form one contiguous block in ascending midpoint
      order, immediately after the first line whose position is defined and at
      most the smallest midpoint, or at the end of the page if there is none
      (in particular when no line has a position). */
  lemma {:induction false} MergeIsPlaced(lines: seq<Line>, figs: seq<Figure>)
    requires Sorted(figs)
    ensures Merge(lines, figs) == Placed(lines, figs)
    decreases |lines|
  {
    if |figs| == 0 {
      MergeNoFigures(lines);
    } else if |lines| == 0 {
    } else if Anchors(lines[0], figs[0].mid) {
      MergeAnchoredFirst(lines, figs);
      assert TextLines(lines[..1]) == [TextLine(lines[0].text)];
    } else {
      MergeSkipsFirst(lines, figs);
      PlacedSkipsFirst(lines, figs);
      MergeIsPlaced(lines[1..], figs);
    }
  }

  /** The inner loop stops exactly after `Lead` figures. */
  lemma LeadExact(pos: Option<real>, figs: seq<Figure>, k: nat)
    requires k <= |figs|
    requires forall i :: 0 <= i < k ==> Emits(pos, figs[i])
    requires k < |figs| ==> !Emits(pos, figs[k])
    ensures Lead(pos, figs) == k
  {
  }

  /** One round of the outer loop: the line, then the figures the inner loop
      emitted, then the merge of what is left. */
  lemma {:induction false} MergeRound(lines: seq<Line>, figs: seq<Figure>, i: nat, start: nat, idx: nat)
    requires i < |lines| && start <= idx <= |figs|
    requires forall j :: start <= j < idx ==> Emits(lines[i].pos, figs[j])
    requires idx < |figs| ==> !Emits(lines[i].pos, figs[idx])
    ensures Merge(lines[i..], figs[start..])
         == [TextLine(lines[i].text)] + FigureLines(figs[start..idx]) + Merge(lines[i + 1..], figs[idx..])
  {
    var pending := figs[start..];
    var k := idx - start;
    forall j | 0 <= j < k ensures Emits(lines[i].pos, pending[j]) {
      assert pending[j] == figs[start + j];
    }
    if k < |pending| { assert pending[k] == figs[idx]; }
    LeadExact(lines[i].pos, pending, k);
    assert pending[..k] == figs[start..idx];
    assert pending[k..] == figs[idx..];
    assert lines[i..][1..] == lines[i + 1..];
  }

  /** The inner loop of the merge: after a line at `pos`, emit pending
      figures from `from` on while the test passes. */
  method EmitPending(pos: Option<real>, figs: seq<Figure>, from: nat) returns (emitted: seq<MergedLine>, next: nat)
    requires from <= |figs|
    ensures from <= next <= |figs|
    ensures forall j :: from <= j < next ==> Emits(pos, figs[j])
    ensures next < |figs| ==> !Emits(pos, figs[next])
    ensures emitted == FigureLines(figs[from..next])
  {
    emitted := [];
    next := from;
    while next < |figs|
      invariant from <= next <= |figs|
      invariant forall j :: from <= j < next ==> Emits(pos, figs[j])
      invariant emitted == FigureLines(figs[from..next])
    {
      if pos.Some? && figs[next].mid >= pos.value {
        assert figs[from..next + 1] == figs[from..next] + [figs[next]];
        FigureLinesAppend(figs[from..next], [figs[next]]);
        emitted := emitted + [FigureLine(figs[next])];
        next := next + 1;
      } else {
        break;
      }
    }
  }

  /** Appending a round's output keeps the loop's accounting: what is out
      plus what is left to merge is the whole merge. */
  lemma Regroup(out: seq<MergedLine>, head: seq<MergedLine>, rest: seq<MergedLine>, whole: seq<MergedLine>)
    requires out + (head + rest) == whole
    ensures (out + head) + rest == whole
  {
  }

  lemma FigureLinesStep(figs: seq<Figure>, idx: nat)
    requires idx < |figs|
    ensures FigureLines(figs[idx..]) == [FigureLine(figs[idx])] + FigureLines(figs[idx + 1..])
  {
    assert figs[idx..][1..] == figs[idx + 1..];
  }

  /** The merge loop as the program writes it: an outer loop over the lines
      with the inner loop after each, and a final loop for the leftovers. */
  method MergeLoop(lines: seq<Line>, figs: seq<Figure>) returns (out: seq<MergedLine>)
    ensures out == Merge(lines, figs)
  {
    out := [];
    var figIdx := 0;
    var i := 0;
    while i < |lines|
      invariant 0 <= i <= |lines| && 0 <= figIdx <= |figs|
      invariant out + Merge(lines[i..], figs[figIdx..]) == Merge(lines, figs)
    {
      var emitted, next := EmitPending(lines[i].pos, figs, figIdx);
      MergeRound(lines, figs, i, figIdx, next);
      Regroup(out, [TextLine(lines[i].text)] + emitted, Merge(lines[i + 1..], figs[next..]), Merge(lines, figs));
      out := out + ([TextLine(lines[i].text)] + emitted);
      figIdx := next;
      i := i + 1;
    }
    assert lines[i..] == [];
    while figIdx < |figs|
      invariant 0 <= figIdx <= |figs|
      invariant out + FigureLines(figs[figIdx..]) == Merge(lines, figs)
    {
      FigureLinesStep(figs, figIdx);
      Regroup(out, [FigureLine(figs[figIdx])], FigureLines(figs[figIdx + 1..]), Merge(lines, figs));
      out := out + [FigureLine(figs[figIdx])];
      figIdx := figIdx + 1;
    }
    assert figs[figIdx..] == [];
  }
}

=== FILE: routing.dfy ===
/** `process_document`: choose the captioning backend from the settings, then
    send a PDF through the image-aware pipeline when captioning is on and
    every other file (or a PDF without captioning) through the generic
    converter, whose outcome arrives as an input. */
module Routing {
  import opened Wrappers
  import opened Text
  import opened Chat
  import opened Captioner
  import LocalClient
  import opened Document

  const OpenAiProvider: string := "OpenAI"
  const OpenAiModel: string := "gpt-4o"
  const LocalModel: string := "llama-3.1-unhinged-vision-8b"

  /** The client the pipeline captions with and the model it names. */
  datatype Backend = Backend(client: Client, model: string)

  /** The index of the last occurrence of `c` in `s` (`s.rfind(c)`). */
  function LastIndex(s: string, c: char): (r: Option<nat>)
    ensures r.None? <==> c !in s
    ensures r.Some? ==> (r.value < |s| && s[r.value] == c
      && forall k :: r.value < k < |s| ==> s[k] != c)
    decreases |s|
  {
    if |s| == 0 then None
    else if s[|s| - 1] == c then Some(|s| - 1)
    else
      assert s == s[..|s| - 1] + [s[|s| - 1]];
      LastIndex(s[..|s| - 1], c)
  }

  /** The final component of an upload's name: what follows the last `/`. */
  function BaseName(path: string): (b: string)
    ensures '/' !in b
    ensures '/' !in path ==> b == path
    ensures '/' in path ==> exists i :: 0 <= i < |path| && path[i] == '/' && '/' !in path[i + 1..] && b == path[i + 1..]
    ensures |b| <= |path|
  {
    match LastIndex(path, '/')
    case None => path
    case Some(i) => path[i + 1..]
  }

  /** `Path(name).suffix`: from the last dot on, provided that dot is neither
      the first character nor the last; otherwise empty. */
  function Suffix(name: string): (x: string)
    ensures x != "" ==> (2 <= |x| < |name| && x == name[|name| - |x|..] && x[0] == '.' && '.' !in x[1..])
    ensures '.' !in name ==> x == ""
    ensures forall i :: 0 < i < |name| - 1 && name[i] == '.' && '.' !in name[i + 1..] ==> x == name[i..]
  {
    assert forall i :: 0 < i < |name| - 1 && name[i] == '.' && '.' !in name[i + 1..] ==>
      LastIndex(name, '.') == Some(i) by {
      forall i | 0 < i < |name| - 1 && name[i] == '.' && '.' !in name[i + 1..]
        ensures LastIndex(name, '.') == Some(i)
      {
        assert forall k :: i < k < |name| ==> name[k] == name[i + 1..][k - i - 1];
        LastIndexAt(name, '.', i);
      }
    }
    match LastIndex(name, '.')
    case Some(i) => if 0 < i < |name| - 1 then name[i..] else ""
    case None => ""
  }

  /** `Path(name).suffix.lower() == ".pdf"`. */
  predicate IsPdf(name: string): (pdf: bool)
    ensures pdf ==> |name| > 4
  {
    LowerAscii(Suffix(BaseName(name))) == ".pdf"
  }

  lemma LowerDot(ch: char)
    ensures LowerChar(ch) == '.' <==> ch == '.'
  {
  }

  /** The last occurrence is the one with no occurrence after it. */
  lemma LastIndexAt(s: string, c: char, n: nat)
    requires n < |s| && s[n] == c && forall k :: n < k < |s| ==> s[k] != c
    ensures LastIndex(s, c) == Some(n)
  {
    assert c in s;
  }

  /** A final component ending in `.pdf`, in any case, after at least one
      other character has `.pdf` as its lower-cased suffix. */
  lemma PdfEndingIsPdf(b: string)
    requires |b| > 4 && LowerAscii(b[|b| - 4..]) == ".pdf"
    ensures LowerAscii(Suffix(b)) == ".pdf"
  {
    var n := |b| - 4;
    var tail := b[n..];
    assert LowerChar(b[n]) == LowerAscii(tail)[0] == '.';
    LowerDot(b[n]);
    forall k | n < k < |b| ensures b[k] != '.' {
      assert LowerChar(b[k]) == LowerAscii(tail)[k - n] != '.';
      LowerDot(b[k]);
    }
    LastIndexAt(b, '.', n);
    assert Suffix(b) == tail;
  }

  /** A `.pdf` suffix is the last four characters of a longer final component. */
  lemma PdfSuffixIsEnding(b: string)
    requires LowerAscii(Suffix(b)) == ".pdf"
    ensures |b| > 4 && LowerAscii(b[|b| - 4..]) == ".pdf"
  {
    var x := Suffix(b);
    assert |x| == 4;
    var i := LastIndex(b, '.').value;
    assert x == b[i..];
  }

  /** An upload is routed as a PDF exactly when its final component has
      something before a last four characters that read `.pdf` in any
      letter case. */
  lemma IsPdfIff(name: string)
    ensures var b := BaseName(name);
      IsPdf(name) <==> |b| > 4 && LowerAscii(b[|b| - 4..]) == ".pdf"
  {
    var b := BaseName(name);
    if IsPdf(name) {
      PdfSuffixIsEnding(b);
    }
    if |b| > 4 && LowerAscii(b[|b| - 4..]) == ".pdf" {
      PdfEndingIsPdf(b);
    }
  }

  /** `custom_api_key or os.getenv('OPENAI_API_KEY')`, kept only when
      non-empty (`if not api_key` rejects both `None` and `""`). */
  function ApiKey(custom: Option<string>, env: Option<string>): (k: Option<string>)
    ensures k.Some? <==> (custom.Some? && custom.value != "") || (env.Some? && env.value != "")
    ensures k.Some? ==> k.value != "" && (k == custom || k == env)
    ensures custom.Some? && custom.value != "" ==> k == custom
  {
    if custom.Some? && custom.value != "" then custom
    else if env.Some? && env.value != "" then env
    else None
  }

  /** The backend the settings select: none without captioning; the remote
      API with the chosen key and `gpt-4o` when its library is installed and
      a key is available; the local endpoint at its default address with the
      local vision model for any provider other than `"OpenAI"`. */
  function SelectBackend(
    useLlm: bool, provider: string, custom: Option<string>, env: Option<string>, openAiInstalled: bool)
    : (r: Result<Option<Backend>, Fault>)
    ensures !useLlm ==> r == Success(None)
    ensures useLlm && provider != OpenAiProvider ==>
      r == Success(Some(Backend(LocalLlm(LocalClient.DefaultBaseUrl), LocalModel)))
    ensures useLlm && provider == OpenAiProvider ==> (
      && (!openAiInstalled ==> r == Failure(OpenAiNotInstalled))
      && (openAiInstalled && ApiKey(custom, env).None? ==> r == Failure(ApiKeyRequired))
      && (r.Success? <==> openAiInstalled && ApiKey(custom, env).Some?)
      && (r.Success? ==> r.value == Some(Backend(OpenAiLlm(ApiKey(custom, env).value), OpenAiModel))))
    ensures r.Success? ==> (r.value.Some? <==> useLlm)
  {
    if !useLlm then Success(None)
    else if provider == OpenAiProvider then
      if !openAiInstalled then Failure(OpenAiNotInstalled)
      else match ApiKey(custom, env)
        case None => Failure(ApiKeyRequired)
        case Some(key) => Success(Some(Backend(OpenAiLlm(key), OpenAiModel)))
    else Success(Some(Backend(LocalLlm(LocalClient.DefaultBaseUrl), LocalModel)))
  }

  /** The settings of one document request. */
  datatype Settings = Settings(
    useLlm: bool, provider: string, customKey: Option<string>, envKey: Option<string>, openAiInstalled: bool)

  /** The generic converter's answer for the upload: its text content (absent
      or present), or the error it raised. */
  type Converted = Result<Option<string>, Fault>

  /** `result.text_content.strip() if result and result.text_content else ""`. */
  function ConvertedText(c: Converted): (r: Result<string, Fault>)
    ensures c.Failure? ==> r == Failure(c.error)
    ensures c.Success? && c.value.None? ==> r == Success("")
    ensures c.Success? && c.value.Some? ==> r == Success(Strip(c.value.value))
  {
    var text :- c;
    Success(if text.Some? then Strip(text.value) else "")
  }

  /** The text of one uploaded document, or the error that unwound. */
  function ProcessDocument(
    name: string, s: Settings, world: World, pages: seq<PageSource>, converted: Converted)
    : (r: Result<string, Fault>)
    ensures SelectBackend(s.useLlm, s.provider, s.customKey, s.envKey, s.openAiInstalled).Failure? ==>
      r == Failure(SelectBackend(s.useLlm, s.provider, s.customKey, s.envKey, s.openAiInstalled).error)
  {
    var backend :- SelectBackend(s.useLlm, s.provider, s.customKey, s.envKey, s.openAiInstalled);
    if IsPdf(name) && s.useLlm then
      ProcessPdf(backend.value.client, world, backend.value.model, pages)
    else
      ConvertedText(converted)
  }

  /** A PDF with captioning on goes through the image-aware pipeline with the
      selected backend; any other upload, and any upload with captioning off,
      is the converter's stripped text. */
  lemma Routes(name: string, s: Settings, world: World, pages: seq<PageSource>, converted: Converted)
    requires SelectBackend(s.useLlm, s.provider, s.customKey, s.envKey, s.openAiInstalled).Success?
    ensures var b := SelectBackend(s.useLlm, s.provider, s.customKey, s.envKey, s.openAiInstalled).value;
      if IsPdf(name) && s.useLlm then
        b.Some? && ProcessDocument(name, s, world, pages, converted) == ProcessPdf(b.value.client, world, b.value.model, pages)
      else
        ProcessDocument(name, s, world, pages, converted) == ConvertedText(converted)
  {
  }

  /** With captioning off nothing reaches a backend: the outcome does not
      depend on the world, on the pages, nor on which provider is selected. */
  lemma NoLlmNoBackend(
    name: string, s: Settings, t: Settings, w1: World, w2: World,
    p1: seq<PageSource>, p2: seq<PageSource>, converted: Converted)
    requires !s.useLlm && !t.useLlm
    ensures ProcessDocument(name, s, w1, p1, converted) == ProcessDocument(name, t, w2, p2, converted)
  {
  }

  /** The default local route posts every caption request to the default
      endpoint with the local vision model. */
  lemma LocalRoute(name: string, s: Settings, world: World, pages: seq<PageSource>, converted: Converted)
    requires s.useLlm && s.provider != OpenAiProvider
    ensures IsPdf(name) ==>
      ProcessDocument(name, s, world, pages, converted)
        == ProcessPdf(LocalLlm(LocalClient.DefaultBaseUrl), world, LocalModel, pages)
  {
  }
}

=== FILE: text.dfy ===
/** The Python string operations the pipeline relies on: `str.split` on one
    character, `str.join`, the substring test `needle in hay`, `str.strip()`,
    decimal rendering of integers in f-strings, and ASCII lower-casing. */
module Text {

  // ---------------------------------------------------------------------------
  // split / join
  // ---------------------------------------------------------------------------

  /** `s.split(c)`: the pieces of `s` between occurrences of `c`, in order.
      Like Python, the empty string splits into one empty piece and a
      trailing separator yields a trailing empty piece. */
  function Split(s: string, c: char): (parts: seq<string>)
    ensures |parts| >= 1
    ensures forall i :: 0 <= i < |parts| ==> c !in parts[i]
    decreases |s|
  {
    if |s| == 0 then [""]
    else
      var rest := Split(s[1..], c);
      if s[0] == c then [""] + rest
      else [[s[0]] + rest[0]] + rest[1..]
  }

  /** `sep.join(parts)`. */
  function Join(sep: string, parts: seq<string>): string
    decreases |parts|
  {
    if |parts| == 0 then ""
    else if |parts| == 1 then parts[0]
    else parts[0] + sep + Join(sep, parts[1..])
  }

  lemma JoinCons(sep: string, a: string, rest: seq<string>)
    requires |rest| >= 1
    ensures Join(sep, [a] + rest) == a + sep + Join(sep, rest)
  {
    assert ([a] + rest)[1..] == rest;
  }

  /** Joining one more piece appends the separator and that piece. */
  lemma {:induction false} JoinSnoc(sep: string, parts: seq<string>, x: string)
    requires |parts| >= 1
    ensures Join(sep, parts + [x]) == Join(sep, parts) + sep + x
    decreases |parts|
  {
    if |parts| == 1 {
      assert parts + [x] == [parts[0]] + [x];
      JoinCons(sep, parts[0], [x]);
    } else {
      assert parts + [x] == [parts[0]] + (parts[1..] + [x]);
      JoinCons(sep, parts[0], parts[1..] + [x]);
      JoinSnoc(sep, parts[1..], x);
      assert parts == [parts[0]] + parts[1..];
      JoinCons(sep, parts[0], parts[1..]);
    }
  }

  /** Joining the pieces of a split with the separator gives back the string. */
  lemma {:induction false} SplitThenJoin(s: string, c: char)
    ensures Join([c], Split(s, c)) == s
    decreases |s|
  {
    if |s| > 0 {
      var rest := Split(s[1..], c);
      SplitThenJoin(s[1..], c);
      if s[0] == c {
        JoinCons([c], "", rest);
        assert s == [c] + s[1..];
      } else if |rest| == 1 {
        assert Join([c], Split(s, c)) == [s[0]] + rest[0];
      } else {
        JoinCons([c], [s[0]] + rest[0], rest[1..]);
        JoinCons([c], rest[0], rest[1..]);
        assert [rest[0]] + rest[1..] == rest;
        assert s == [s[0]] + s[1..];
      }
    }
  }

  /** A string free of the separator splits into itself alone. */
  lemma {:induction false} SplitWithoutSeparator(a: string, c: char)
    requires c !in a
    ensures Split(a, c) == [a]
    decreases |a|
  {
    if |a| > 0 {
      SplitWithoutSeparator(a[1..], c);
      assert [a[0]] + a[1..] == a;
    }
  }

  /** Splitting stops at the first separator. */
  lemma {:induction false} SplitAtFirst(a: string, c: char, t: string)
    requires c !in a
    ensures Split(a + [c] + t, c) == [a] + Split(t, c)
    decreases |a|
  {
    var s := a + [c] + t;
    if |a| == 0 {
      assert s[1..] == t;
    } else {
      assert s[1..] == a[1..] + [c] + t;
      SplitAtFirst(a[1..], c, t);
      assert [a[0]] + a[1..] == a;
    }
  }

  /** Splitting a join of separator-free pieces gives back the pieces: with
      `SplitThenJoin`, split and join are inverse bijections. */
  lemma {:induction false} JoinThenSplit(parts: seq<string>, c: char)
    requires |parts| >= 1
    requires forall i :: 0 <= i < |parts| ==> c !in parts[i]
    ensures Split(Join([c], parts), c) == parts
    decreases |parts|
  {
    if |parts| == 1 {
      SplitWithoutSeparator(parts[0], c);
    } else {
      JoinThenSplit(parts[1..], c);
      SplitAtFirst(parts[0], c, Join([c], parts[1..]));
      assert [parts[0]] + parts[1..] == parts;
    }
  }

  /** `s.split(c)[1]` exists exactly when `c` occurs in `s`. */
  lemma SplitHasSecond(s: string, c: char)
    ensures |Split(s, c)| >= 2 <==> c in s
  {
    if |Split(s, c)| == 1 {
      SplitThenJoin(s, c);
      assert s == Split(s, c)[0];
    }
    if c !in s {
      SplitWithoutSeparator(s, c);
    }
  }

  // ---------------------------------------------------------------------------
  // substring test
  // ---------------------------------------------------------------------------

  predicate IsPrefix(p: string, s: string) {
    |p| <= |s| && s[..|p|] == p
  }

  /** Python's `needle in hay` on strings; the empty needle is in every string. */
  predicate Contains(hay: string, needle: string)
    decreases |hay|
  {
    IsPrefix(needle, hay) || (|hay| > 0 && Contains(hay[1..], needle))
  }

  /** `needle` occurs in `hay` at offset `i`. */
  predicate OccursAt(hay: string, needle: string, i: int) {
    0 <= i <= |hay| - |needle| && hay[i..i + |needle|] == needle
  }

  /** `needle in hay` holds exactly when `needle` occurs at some offset. */
  lemma {:induction false} ContainsIff(hay: string, needle: string)
    ensures Contains(hay, needle) <==> exists i :: OccursAt(hay, needle, i)
    decreases |hay|
  {
    if IsPrefix(needle, hay) {
      assert OccursAt(hay, needle, 0);
    } else if |hay| == 0 {
    } else {
      ContainsIff(hay[1..], needle);
      if exists i :: OccursAt(hay, needle, i) {
        var i :| OccursAt(hay, needle, i);
        assert i != 0;
        assert hay[1..][i - 1..i - 1 + |needle|] == hay[i..i + |needle|];
        assert OccursAt(hay[1..], needle, i - 1);
      }
      if Contains(hay[1..], needle) {
        var i :| OccursAt(hay[1..], needle, i);
        assert hay[i + 1..i + 1 + |needle|] == hay[1..][i..i + |needle|];
        assert OccursAt(hay, needle, i + 1);
      }
    }
  }

  // ---------------------------------------------------------------------------
  // strip
  // ---------------------------------------------------------------------------

  /** The characters for which Python's `str.isspace()` holds. */
  predicate IsSpace(ch: char) {
    ch == ' ' || ch == '\t' || ch == '\n' || ch == '\r' || ch == '\U{0B}' || ch == '\U{0C}'
    || ('\U{1C}' <= ch <= '\U{1F}') || ch == '\U{85}' || ch == '\U{A0}' || ch == '\U{1680}'
    || ('\U{2000}' <= ch <= '\U{200A}') || ch == '\U{2028}' || ch == '\U{2029}'
    || ch == '\U{202F}' || ch == '\U{205F}' || ch == '\U{3000}'
  }

  function StripStart(s: string): (r: string)
    ensures |r| <= |s| && r == s[|s| - |r|..]
    ensures forall k :: 0 <= k < |s| - |r| ==> IsSpace(s[k])
    ensures r == [] || !IsSpace(r[0])
    decreases |s|
  {
    if |s| > 0 && IsSpace(s[0]) then StripStart(s[1..]) else s
  }

  function StripEnd(s: string): (r: string)
    ensures |r| <= |s| && r == s[..|r|]
    ensures forall k :: |r| <= k < |s| ==> IsSpace(s[k])
    ensures r == [] || !IsSpace(r[|r| - 1])
    decreases |s|
  {
    if |s| > 0 && IsSpace(s[|s| - 1]) then StripEnd(s[..|s| - 1]) else s
  }

  /** `r` is `s[i..j]` and everything of `s` outside that slice is whitespace. */
  predicate TrimmedAt(s: string, r: string, i: int, j: int) {
    && 0 <= i <= j <= |s| && r == s[i..j]
    && (forall k :: 0 <= k < i ==> IsSpace(s[k]))
    && (forall k :: j <= k < |s| ==> IsSpace(s[k]))
  }

  /** `s.strip()`: `s` without its leading and trailing whitespace. */
  function Strip(s: string): (r: string)
    ensures exists i, j :: TrimmedAt(s, r, i, j)
    ensures r == [] || (!IsSpace(r[0]) && !IsSpace(r[|r| - 1]))
  {
    var a := StripStart(s);
    var r := StripEnd(a);
    TrimmedComposes(s, a, r, |s| - |a|);
    r
  }

  /** Trimming a whitespace prefix and then a whitespace suffix trims both. */
  lemma TrimmedComposes(s: string, a: string, r: string, i: int)
    requires 0 <= i <= |s| && a == s[i..] && forall k :: 0 <= k < i ==> IsSpace(s[k])
    requires |r| <= |a| && r == a[..|r|] && forall k :: |r| <= k < |a| ==> IsSpace(a[k])
    ensures TrimmedAt(s, r, i, i + |r|)
  {
    forall k | i + |r| <= k < |s| ensures IsSpace(s[k]) {
      assert s[k] == a[k - i];
    }
    assert r == s[i..i + |r|];
  }

  /** A string without whitespace at either end is left unchanged by strip. */
  lemma StripClean(s: string)
    requires s == [] || (!IsSpace(s[0]) && !IsSpace(s[|s| - 1]))
    ensures Strip(s) == s
  {
  }

  /** Stripping twice is stripping once. */
  lemma StripIdempotent(s: string)
    ensures Strip(Strip(s)) == Strip(s)
  {
    StripClean(Strip(s));
  }

  // ---------------------------------------------------------------------------
  // decimal rendering
  // ---------------------------------------------------------------------------

  predicate IsDigit(ch: char) {
    '0' <= ch <= '9'
  }

  function DigitChar(d: nat): (ch: char)
    requires d < 10
    ensures IsDigit(ch)
  {
    "0123456789"[d]
  }

  function DigitValue(ch: char): nat
    requires IsDigit(ch)
  {
    (ch as int - '0' as int) as nat
  }

  /** The decimal text of `n`, as Python's `str(n)` or an f-string prints it. */
  function NatToString(n: nat): (s: string)
    ensures |s| >= 1
    ensures forall k :: 0 <= k < |s| ==> IsDigit(s[k])
    ensures s[0] != '0' || s == "0"
    decreases n
  {
    if n < 10 then [DigitChar(n)] else NatToString(n / 10) + [DigitChar(n % 10)]
  }

  /** The value of a string of decimal digits. */
  function ParseNat(s: string): nat
    requires forall k :: 0 <= k < |s| ==> IsDigit(s[k])
    decreases |s|
  {
    if |s| == 0 then 0 else ParseNat(s[..|s| - 1]) * 10 + DigitValue(s[|s| - 1])
  }

  /** Reading back the decimal text of `n` gives `n`. */
  lemma {:induction false} ParseNatToString(n: nat)
    ensures ParseNat(NatToString(n)) == n
    decreases n
  {
    var s := NatToString(n);
    if n >= 10 {
      ParseNatToString(n / 10);
      assert s[..|s| - 1] == NatToString(n / 10);
    }
    assert DigitValue(DigitChar(n % 10)) == n % 10 by {
      var d := n % 10;
      assert "0123456789"[d] as int - '0' as int == d;
    }
  }

  /** Distinct numbers have distinct decimal texts. */
  lemma NatToStringInjective(m: nat, n: nat)
    requires NatToString(m) == NatToString(n)
    ensures m == n
  {
    ParseNatToString(m);
    ParseNatToString(n);
  }

  // ---------------------------------------------------------------------------
  // lower-casing
  // ---------------------------------------------------------------------------

  function LowerChar(ch: char): char {
    if 'A' <= ch <= 'Z' then (ch as int + 32) as char else ch
  }

  /** `s.lower()` restricted to ASCII letters. */
  function LowerAscii(s: string): (r: string)
    ensures |r| == |s|
    ensures forall k :: 0 <= k < |s| ==> r[k] == LowerChar(s[k])
  {
    seq(|s|, k requires 0 <= k < |s| => LowerChar(s[k]))
  }
}

=== FILE: wrappers.dfy ===
/** How the model writes Python's absent values and raised exceptions: an
    absent value is `None`, and a call that raises returns `Failure` with the
    error, which `:-` hands on to the caller just as an uncaught exception
    unwinds. */
module Wrappers {

  /** A value that may be absent, Python's `None`. */
  datatype Option<+T> = None | Some(value: T) {

    /** The value, or `default` when absent. */
    function ValueOr(default: T): T {
      match this
      case Some(v) => v
      case None => default
    }
  }

  /** Either a computed value or the error that was raised. */
  datatype Result<+R, +E> = Success(value: R) | Failure(error: E) {

    predicate IsFailure() {
      Failure?
    }

    function PropagateFailure<U>(): Result<U, E>
      requires Failure?
    {
      Failure(error)
    }

    function Extract(): R
      requires Success?
    {
      value
    }
  }

  /** `f` applied to every element in order, stopping at the first failure:
      the results of a Python loop that calls `f` and lets its exception
      unwind. */
  function MapAll<A, B, E>(f: A -> Result<B, E>, xs: seq<A>): (r: Result<seq<B>, E>)
    ensures r.Success? <==> forall i :: 0 <= i < |xs| ==> f(xs[i]).Success?
    ensures r.Success? ==> |r.value| == |xs| && forall i :: 0 <= i < |xs| ==> f(xs[i]) == Success(r.value[i])
    ensures r.Failure? ==> exists i :: (0 <= i < |xs| && f(xs[i]) == Failure(r.error)
      && forall j :: 0 <= j < i ==> f(xs[j]).Success?)
    decreases |xs|
  {
    if |xs| == 0 then Success([])
    else
      var first := f(xs[0]);
      if first.Failure? then Failure(first.error)
      else
        var rest := MapAll(f, xs[1..]);
        assert forall i :: 1 <= i < |xs| ==> xs[i] == xs[1..][i - 1];
        if rest.Failure? then
          assert exists i :: (0 <= i < |xs| && f(xs[i]) == Failure(rest.error)
            && forall j :: 0 <= j < i ==> f(xs[j]).Success?) by {
            var i :| 0 <= i < |xs[1..]| && f(xs[1..][i]) == Failure(rest.error)
              && forall j :: 0 <= j < i ==> f(xs[1..][j]).Success?;
            assert f(xs[i + 1]) == Failure(rest.error);
          }
          Failure(rest.error)
        else Success([first.value] + rest.value)
  }
}
